=== FILE: README.md ===
# Template finding in the MediaWiki template parser

This project models the part of `wikibase-solutions/mediawiki-template-parser`
that locates templates in wikitext. It proves properties of that model in Dafny.

- **`RecursiveParser::findTemplates`** is a flat scanner over the codepoints
  of the wikitext. It keeps a parameter flag, a counter of open template
  braces and a buffer. It looks three characters ahead, and a position past
  the end reads as the NUL character. When a `}}` brings the counter back to
  zero, it emits the buffered text if `isValidTemplate` accepts it.
- **`isValidTemplate`** accepts text of at least five characters that opens
  with `{{`, closes with `}}`, and is not a parser function (`{{#...}}`).
- **`TemplateFinder`** is a cursor over the same codepoints, with `current`,
  `peek` (NUL past the end, default distance 1), `consume` and `atEnd`. Its
  loop tests for `{{{` before `{{`.

Modules:

- `Text` (text.dfy): the sentinel lookahead, and the predicates `Pair`,
  `Triple` and `StartsAt` for braces standing at a position.
- `Utf8` (utf8.dfy): UTF-8 encoding of codepoints. It is used to relate the
  byte checks of `isValidTemplate` to the codepoint reading.
- `RecursiveParser` (recursive_parser.dfy): the scanner as a state machine.
  - `Classify` picks the branch.
  - `Step` is one loop iteration.
  - `Run` and `FindTemplates` run the loop to the end.
  - `ScanTemplates` is the loop written imperatively, proved equal to
    `FindTemplates`.
- `TemplateValidity` (template_validity.dfy): what `isValidTemplate` accepts,
  and why the byte reading and the codepoint reading agree.
- `ScanProperties` (scan_properties.dfy): properties of whole runs, and the
  behaviour on the inputs of the repository's tests.
- `TemplateFinder` (template_finder.dfy): the cursor as an immutable value,
  and its dispatch loop.

Inputs and outputs are modelled as follows:

- The wikitext is given already split into codepoints (`string`).
- The byte-level check is modelled separately, over the UTF-8 encoding.
- There is no I/O.

## Model

| member | source | states |
|---|---|---|
| Text.Lookahead | src/RecursiveParser.php:58-60 | Inside the text it gives the character there. Outside the text, on either side, it gives the NUL sentinel. |
| Text.PairIsWord | src/RecursiveParser.php:78 | Two equal characters at `i` by position is the same as the two-character word occurring at `i`. |
| Text.TripleIsWord | src/RecursiveParser.php:62 | Three equal characters at `i` by position is the same as the three-character word occurring at `i`. |
| RecursiveParser.IsValidTemplate | src/RecursiveParser.php:115-120 | The codepoint reading of `isValidTemplate`: at least five codepoints, opening `{{`, closing `}}`, and a third codepoint other than `#`. |
| RecursiveParser.IsValidTemplateBytes | src/RecursiveParser.php:116-119 | The check as written, on bytes: at least five bytes, the first two `{`, the last two `}`, and the third byte not `#`. |
| RecursiveParser.Classify | src/RecursiveParser.php:62-103 | Each of the six branches is characterised by the braces actually standing at the index. `{{{` opens a parameter only outside one. `}}}` closes one only inside one. `{{` and `}}` apply when the three-brace reading does not. Every other character is "inside" or "outside" according to the sign of the counter. |
| RecursiveParser.Step | src/RecursiveParser.php:56-103 | One iteration consumes 3, 3, 2, 2, 1 or 1 characters by branch. The counter moves +1 on `{{`, -1 on `}}`, and not otherwise. The flag is set by `{{{` and cleared by `}}}`. The buffer grows by exactly the consumed characters, or stays the same. Only a `}}` that returns the counter to zero emits the buffer, when valid, and clears it. |
| RecursiveParser.Run | src/RecursiveParser.php:56-104 | The loop ends exactly at the end of the text. Earlier templates are kept as a prefix, and every template added is valid. |
| RecursiveParser.FindTemplates | src/RecursiveParser.php:47-107 | Every returned template passes `isValidTemplate`. |
| RecursiveParser.ScanTemplates | src/RecursiveParser.php:47-107 | The loop as written, with `$idx += 2` / `$idx++` inside the branches plus the loop's own increment, returns exactly `FindTemplates(s)`, and every item is valid. |
| TemplateValidity.WrappedNameIsValid | src/RecursiveParser.php:115-120 | `{{name}}` is accepted if and only if `name` is non-empty and does not start with `#`. |
| TemplateValidity.ValidTemplateIsWrapped | src/RecursiveParser.php:116-118 | Every accepted text is some name wrapped in `{{` and `}}`. |
| TemplateValidity.ValidTemplateExamples | src/RecursiveParser.php:115-120 | `{{}}` and `{{#Example}}` are rejected. `{{ }}`, `{{Example}}` and `{{{Param1}}}` are accepted. |
| TemplateValidity.OpeningAgrees | src/RecursiveParser.php:117 | The UTF-8 bytes start with `{{` if and only if the codepoints do. |
| TemplateValidity.ClosingAgrees | src/RecursiveParser.php:118 | The UTF-8 bytes end with `}}` (`$source[-1]`, `$source[-2]`) if and only if the codepoints do. |
| TemplateValidity.ClosedByBrace | src/RecursiveParser.php:118 | When the last codepoint is `}`, the second-to-last byte is `}` exactly when the second-to-last codepoint is. |
| TemplateValidity.ByteCheckAgrees | src/RecursiveParser.php:115-120 | The check as written on bytes (`strlen`, byte indices) accepts exactly the texts that the codepoint reading accepts. |
| ScanProperties.RunConsumesInput | src/RecursiveParser.php:56-104 | Every character left is consumed exactly once. The number of iterations lies between a third of the remaining length and the whole remaining length. |
| ScanProperties.CounterIsNetTemplateBraces | src/RecursiveParser.php:78-87 | The final counter is the starting counter plus the `{{` branches taken minus the `}}` branches taken. Nothing clamps it at zero. |
| ScanProperties.StrayCloseGoesNegative | src/RecursiveParser.php:84-86 | On `}}` the counter ends at -1. On `}}{{` it returns to 0. |
| ScanProperties.ReachesNext | src/RecursiveParser.php:56-104 | The state after a state the loop meets is also met by the loop. |
| ScanProperties.StepTracked | src/RecursiveParser.php:56-103 | One iteration keeps the source invariant. Templates so far are ordered spans of the text. The buffer is empty at counter zero, or junk starting with `}`, or (counter positive) exactly the text since its `{{`. Each span is anchored at the state whose `{{` raised the counter from zero and the state whose `}}` returned it to zero, and a live buffer at the state that started it. |
| ScanProperties.StepFromClean | src/RecursiveParser.php:78-83 | At counter zero with an empty buffer, a `{{` starts a buffer that equals the source from that `{{` onwards, anchored at the current state. Any other step keeps the buffer empty, or makes it junk. |
| ScanProperties.StepFromJunk | src/RecursiveParser.php:84-99 | A buffer that starts with `}` still does so after the step, or is dropped without being emitted, since it can never pass `isValidTemplate`. |
| ScanProperties.StepFromBuffered | src/RecursiveParser.php:62-103 | A buffer equal to the source since its `{{` grows with the source. When it is emitted, the new template is the source span from that `{{` to the index, it lies after every earlier span, and it is anchored at the buffer's opening state and at the current state. |
| ScanProperties.EmitTracked | src/RecursiveParser.php:84-99 | A `}}` that completes a valid buffer emits exactly the source span from the buffer's `{{` to just after that `}}`, and leaves counter zero and an empty buffer. |
| ScanProperties.KeepTracked | src/RecursiveParser.php:62-103 | Any other step from a live buffer keeps it equal to the source since its `{{`, or drops it without emitting. |
| ScanProperties.EmitAnchored | src/RecursiveParser.php:84-99 | The span emitted by a completing `}}` starts at the state whose `{{` opened the buffer and ends two characters after the completing state. |
| ScanProperties.RunTracked | src/RecursiveParser.php:56-104 | From a tracked state, the run's templates are disjoint spans of the text, in source order, each anchored at an opening and a closing state the run meets. |
| ScanProperties.TemplatesAreOrderedSpans | src/RecursiveParser.php:47-107 | Every returned template is the text of a span of the source that starts with `{{`, ends with `}}` and has length at least 5. The spans are disjoint and in source order. Each span starts where the loop, at counter zero, reads the `{{` that raises the counter to one, and ends right after the `}}` at which the loop brings the counter from one back to zero. |
| ScanProperties.TemplateNeedsClose | src/RecursiveParser.php:84-95 | A template is returned only if the text contains `}}` somewhere. |
| ScanProperties.NoCloseNoTemplates | src/RecursiveParser.php:84-95 | A text without `}}` yields no template. |
| ScanProperties.UnclosedTemplate | tests/RecursiveParserTest.php:54-57 | `{{` yields no template. |
| ScanProperties.ParameterTailEmitsNothing | src/RecursiveParser.php:70-77 | Inside a parameter at counter zero, brace-free text followed by the final `}}}` adds nothing. |
| ScanProperties.ParameterAtEnd | src/RecursiveParser.php:62-77 | A trailing brace-free `{{{param}}}`, met at counter zero outside a parameter, adds nothing. |
| ScanProperties.OpenParameter | src/RecursiveParser.php:62-69 | Outside a parameter at counter zero, `{{{` only sets the flag and skips three characters. The buffer is untouched. |
| ScanProperties.LoneParameterYieldsNothing | tests/RecursiveParserTest.php:325-330 | `{{{param}}}`, with `{{{Param1}}}` among them, yields no template. |
| ScanProperties.StepPlainInside | src/RecursiveParser.php:100-103 | With the counter positive, a non-brace character is appended to the buffer. |
| ScanProperties.StepPlainOutside | src/RecursiveParser.php:100-103 | With the counter at zero or below, a non-brace character is skipped, and nothing else changes. |
| ScanProperties.InsideText | src/RecursiveParser.php:100-103 | With the counter positive, a brace-free stretch is appended to the buffer verbatim. |
| ScanProperties.OutsideText | src/RecursiveParser.php:100-103 | With the counter at zero or below, a brace-free stretch leaves no trace. |
| ScanProperties.OpenTemplate | src/RecursiveParser.php:78-83 | A `{{` that is not `{{{`, met outside a parameter at counter zero with an empty buffer, raises the counter to one and makes the buffer `{{`. |
| ScanProperties.CloseTemplate | src/RecursiveParser.php:84-99 | A `}}` at counter one appends `}}`, emits the buffer when it is valid, and resets the buffer and counter. |
| ScanProperties.TemplateText | src/RecursiveParser.php:100-103 | At counter one, in or out of a parameter, brace-free text joins the buffer as it stands. |
| ScanProperties.SimpleTemplate | src/RecursiveParser.php:78-99 | Outside a parameter, at counter zero with an empty buffer, `{{name}}` with a brace-free name is consumed whole. It is emitted if and only if valid, and leaves counter zero and an empty buffer again. |
| ScanProperties.SurroundedTemplate | tests/RecursiveParserTest.php:62-75 | Brace-free text around one `{{name}}` yields that template exactly when it is valid, and nothing else. |
| ScanProperties.ShortestTemplates | tests/RecursiveParserTest.php:58-68 | ` {{ }} ` yields `{{ }}`. `{{}}` yields nothing. |
| ScanProperties.ParserFunctionIsDropped | tests/RecursiveParserTest.php:331-336 | `{{#Example}}` yields nothing. |
| ScanProperties.TwoTemplates | tests/RecursiveParserTest.php:292-306 | Two adjacent templates are both returned, in order, each when valid. `{{Example}}{{Example}}` yields `{{Example}}` twice. |
| ScanProperties.TemplateTextParameter | tests/RecursiveParserTest.php:350-356 | A template followed by text and a parameter yields only the template. |
| ScanProperties.OpenNestedParameter | src/RecursiveParser.php:62-69 | Inside an open template, `{{{` sets the flag and joins the buffer. |
| ScanProperties.CloseNestedParameter | src/RecursiveParser.php:70-77 | Inside a parameter inside an open template, `}}}` clears the flag and joins the buffer. |
| ScanProperties.TemplateWithParameter | tests/RecursiveParserTest.php:337-349 | `{{name{{{param}}}}}` is returned whole. For example, `{{Example|{{{Param1}}}}}` yields itself. |
| ScanProperties.CloseWithoutEmitting | src/RecursiveParser.php:84-90 | A `}}` that does not take the counter from one to zero appends `}}` to the buffer. It lowers the counter, including to -1 and below, and emits nothing. |
| ScanProperties.OpenAtAnyCount | src/RecursiveParser.php:78-83 | A `{{` that is not `{{{` raises the counter by one from any value, negative included, and joins the buffer. |
| ScanProperties.StrayCloseHidesTemplate | src/RecursiveParser.php:78-99 | In `}}{{name}}` with a brace-free name, the stray `}}` hides the template, so the result is empty. For example, `}}{{Example}}` returns nothing. |
| ScanProperties.OpenInParameter | src/RecursiveParser.php:62-83 | Inside a parameter, `{{` always opens a template, because the `{{{` test applies only outside a parameter. |
| ScanProperties.CloseInParameter | src/RecursiveParser.php:70-99 | Inside a parameter, a `}}` that is not `}}}` and returns the counter to zero emits the buffer when it is valid. |
| ScanProperties.IntoParameter | src/RecursiveParser.php:62-69 | A text opening with `{{{` and going on brace-free enters the parameter at counter zero with nothing buffered or emitted. |
| ScanProperties.NameInParameter | src/RecursiveParser.php:78-83 | Inside a parameter, at counter zero with an empty buffer and no template found yet, `{{name` with a brace-free name raises the counter to one and buffers `{{name`. |
| ScanProperties.TemplateInParameter | src/RecursiveParser.php:78-99 | Inside a parameter, at counter zero with an empty buffer and no template found yet, `{{name}}` with a brace-free name, not followed by another `}` is emitted when valid, and the flag stays set. |
| ScanProperties.TemplateClosingParameter | src/RecursiveParser.php:70-99 | Inside a parameter, at counter zero with an empty buffer and no template found yet, `{{name}}}}}` with a brace-free name buffers the parameter's `}}}`, clears the flag, and then emits `{{name}}}}}` when valid. |
| ScanProperties.TemplateInOpenParameter | src/RecursiveParser.php:56-104 | In `{{{text{{name}}` with brace-free text and name, the body of the unterminated top-level parameter is scanned like any other text, and the template in it is returned when valid. |
| ScanProperties.TemplateInClosedParameter | src/RecursiveParser.php:56-104 | In `{{{text{{name}}}}}` with brace-free text and name, the parameter's closing braces are not paired with its opening: the result is `{{name}}}}}`, template and `}}}` together, when valid. |
| ScanProperties.ClosedParameterExample | src/RecursiveParser.php:56-104 | `{{{a{{Example}}}}}` returns exactly `{{Example}}}}}`. |
| TemplateFinder.New | src/Utils/TemplateFinder.php:46-48 | The fresh cursor is at position 0 over the codepoints, with their count, no templates and an empty buffer. Every peek reads the source. It is at the end if and only if the source is empty. |
| TemplateFinder.AtEnd | src/Utils/TemplateFinder.php:102-104 | The cursor is at its end exactly when the position has reached the token count. |
| TemplateFinder.Peek | src/Utils/TemplateFinder.php:95-97 | Gives the token `amount` places ahead, or NUL when there is none (including negative places). |
| TemplateFinder.Current | src/Utils/TemplateFinder.php:87-89 | Gives the token at the position, which is what a peek of zero sees. |
| TemplateFinder.Consume | src/Utils/TemplateFinder.php:80-82 | Returns the current token and advances by one. Every later peek is shifted by one, and nothing else changes. |
| TemplateFinder.NextConstruct | src/Utils/TemplateFinder.php:69-72 | Detects a parameter exactly on `{{{`, and a template exactly on a `{{` that is not `{{{`. |
| TemplateFinder.NextConstructAgreesWithScanner | src/Utils/TemplateFinder.php:69-72 | The cursor's dispatch and the flat scanner's branch test agree on both openings outside a parameter. |
| TemplateFinder.LoopPass | src/Utils/TemplateFinder.php:67-75 | One pass of the loop as written hands over to a parameter exactly on `{{{`, and to a template exactly on a plain `{{`. |
| TemplateFinder.StallsOnPlainText | src/Utils/TemplateFinder.php:67-75 | On any token that does not start `{{`, the pass as written returns the same cursor, still not at the end. |
| TemplateFinder.StallsOnA | src/Utils/TemplateFinder.php:67-75 | The text `a` is such a case. |
| TemplateFinder.SkippingPass | src/Utils/TemplateFinder.php:67-75 | This is the corrected pass. It makes the same hand-overs, and going round again consumes a token. |
| TemplateFinder.SkipToOpening | src/Utils/TemplateFinder.php:67-75 | Repeating the corrected pass stops at the end or at the first `{{` at or after the position, and never skips one. |

## Flat counting, not balanced matching

The class comment calls the parser "a blazing fast recursive descent parser"
(src/RecursiveParser.php:14). The repository's tests expect brace constructs
to be recognised as units:

- a template nested in an argument (tests/RecursiveParserTest.php:228-241);
- a template inside a parameter's default, inside a template
  (tests/RecursiveParserTest.php:774-789).

The loop that locates templates does no descent. It keeps one counter, one
parameter flag and one buffer (src/RecursiveParser.php:52-54), and decides
each step on at most three characters. The model follows the loop. These
consequences are proved:

- A `}}` at counter zero drives the counter to -1, and nothing resets it
  (`StrayCloseGoesNegative`). A template `{{name}}` with a brace-free name
  right after it is then not returned (`StrayCloseHidesTemplate`).
- Inside a top-level parameter that is never closed, the scan goes on as
  usual. In `{{{text{{name}}` with brace-free text and name, the template is
  returned when valid (`TemplateInOpenParameter`).
- A top-level parameter's `}}}` is not paired with its `{{{`. In
  `{{{text{{name}}}}}` with brace-free text and name, the template's buffer takes the parameter's `}}}` as
  well, so `{{{a{{Example}}}}}` returns `{{Example}}}}}`
  (`TemplateInClosedParameter`, `ClosedParameterExample`).
- Only a `}}` that brings the counter from one to zero emits anything
  (`Step`, `CloseWithoutEmitting`). The returned spans are disjoint
  (`TemplatesAreOrderedSpans`), so a template nested in a returned one is
  never returned on its own.

## Left out

- `RecursiveParser::parse` (src/RecursiveParser.php:34-38) only dumps the result of `findTemplates` and exits. The dump and the exit are output, so they are not modelled.
- The `RecursiveParser` constructor (src/RecursiveParser.php:24-26) is not modelled. It only fills the `$tokens` field, which nothing reads; `findTemplates` splits its own argument.
- The script lines at the end of src/RecursiveParser.php (123-125) are not modelled. They call the constructor without its required argument, so PHP stops with an `ArgumentCountError` before `parse` is reached. The tests' `setUp` methods make the same call (tests/RecursiveParserTest.php:34, tests/fuzz/RecursiveParserFuzzTest.php:37).
- `mb_str_split` is not modelled. The wikitext is taken as an already-decoded sequence of codepoints, and invalid UTF-8 is out of scope.
- The byte check is related to the codepoint check through an encoding function (`Utf8.Encode`), not a decoder.
- TemplateFinder.New: models the object right after its fields are set. It does not model the constructor's `findTemplates()` call (src/Utils/TemplateFinder.php:50). That loop is modelled separately as `LoopPass`, and it calls `consumeParameter` and `consumeTemplate`, which the class does not define.
- `consumeParameter` and `consumeTemplate` are not modelled. A pass that reaches them ends in a `ToParameter` / `ToTemplate` hand-over.
- TemplateFinder.GetTemplates: carries no contract of its own. It only reads the template list, which nothing in the modelled code ever fills.
- TemplateFinder.Current: requires a position before the end. PHP raises an error on the undefined index there, and that error is not modelled.
- TemplateFinder.Consume: requires a position before the end, for the same reason as `Current`.
- ScanProperties.SurroundedTemplate: proved for brace-free surrounding text and names only, not for arbitrary text.
- ScanProperties.TwoTemplates: same restriction as `SurroundedTemplate`.
- ScanProperties.TemplateTextParameter: same restriction as `SurroundedTemplate`.
- ScanProperties.LoneParameterYieldsNothing: same restriction as `SurroundedTemplate`.
- ScanProperties.StrayCloseHidesTemplate: proved for brace-free names only; with braces in the name, they move the counter and a later template can be returned.
- ScanProperties.TemplateInOpenParameter: proved for brace-free text and names only; earlier braces in the parameter body change the counter and can hide the template.
- ScanProperties.TemplateInClosedParameter: same restriction as `TemplateInOpenParameter`.
- ScanProperties.OpenParameter: stated only outside a parameter at counter zero; inside a parameter `{{{` opens a template instead (`OpenInParameter`).
- ScanProperties.OpenTemplate: stated only outside a parameter at counter zero with an empty buffer; a leftover buffer stays in front of the `{{`.
- ScanProperties.SimpleTemplate: stated only outside a parameter at counter zero with an empty buffer; inside a parameter a following `}` turns the closing braces into a parameter close, and a leftover buffer changes what is emitted.
- ScanProperties.NameInParameter: stated only inside a parameter from counter zero with an empty buffer and no template found yet, the state `TemplateInOpenParameter` and `TemplateInClosedParameter` meet.
- ScanProperties.TemplateInParameter: same restriction as `NameInParameter`.
- ScanProperties.TemplateClosingParameter: same restriction as `NameInParameter`.
- ScanProperties.TemplateWithParameter: also requires a non-empty name. With an empty name, `{{{{{` would be read as a parameter opening first. The general behaviour is covered by `TemplatesAreOrderedSpans`.
- The repository's tests check the full `parse` result: template names, argument splitting and nested templates. Only the list of templates that result implies is modelled here. The argument splitting and the recursive parsing of arguments are not part of this model.
- The fuzz test (tests/fuzz/RecursiveParserFuzzTest.php:46-51) drives `findTemplates` through `parse` on random brace soup and checks only that the call returns (:41-42). That termination is proved: `Run` decreases the characters left on every step, and `RunConsumesInput` shows the loop consumes each character exactly once. Its `rand`-based generator (:58-70) is not modelled.
- tests/unit/ParserTest.php covers a `Parser` class, which is not part of this model.

## Findings

| source | as written | input that shows it | evidently intended | confidence | as-written member | corrected member |
|---|---|---|---|---|---|---|
| src/Utils/TemplateFinder.php:67-75 | When the current token does not start `{{`, the `while` body does nothing: it neither consumes nor moves the cursor, so the loop condition stays true for ever. | `new TemplateFinder("a")` | A token that opens nothing is consumed, and the loop moves on to the next `{{` or the end. | not executed | TemplateFinder.StallsOnA | TemplateFinder.SkipToOpening |

=== FILE: recursive_parser.dfy ===
/**
 * The flat brace scanner of `RecursiveParser`: `findTemplates` walks the
 * codepoints once, with three characters of lookahead, a parameter flag, a
 * template-brace counter and a buffer, and emits every buffered candidate that
 * `isValidTemplate` accepts when a `}}` brings the counter back to zero.
 */
module RecursiveParser {
  import opened Text
  import Utf8

  /**
   * `isValidTemplate`, read over codepoints: at least five characters, opening
   * with `{{`, closing with `}}`, and not a parser function (`{{#...}}`).
   * The PHP code reads bytes (`strlen`, `$source[2]`, `$source[-1]`);
   * `IsValidTemplateBytes` is that reading, and
   * `TemplateValidity.ByteCheckAgrees` shows that on UTF-8 text both
   * readings accept exactly the same strings.
   */
  predicate IsValidTemplate(t: string) {
    |t| >= 5 && t[0] == '{' && t[1] == '{' && t[|t| - 1] == '}' && t[|t| - 2] == '}' && t[2] != '#'
  }

  /** `isValidTemplate` exactly as written, on the UTF-8 bytes of the buffer. */
  predicate IsValidTemplateBytes(b: seq<Utf8.Byte>) {
    |b| >= 5 && b[0] == '{' as int && b[1] == '{' as int
    && b[|b| - 1] == '}' as int && b[|b| - 2] == '}' as int && b[2] != '#' as int
  }

  /** A completed candidate as a list of emitted templates: itself when valid, else nothing. */
  function Accepted(t: string): seq<string> {
    if IsValidTemplate(t) then [t] else []
  }

  /** The branch of the scan loop that fires at one index. */
  datatype Branch =
    | ParameterOpen   // `{{{` while not in a parameter
    | ParameterClose  // `}}}` while in a parameter
    | TemplateOpen    // `{{`
    | TemplateClose   // `}}`
    | Inside          // any other character while the counter is positive
    | Outside         // any other character while the counter is zero or negative

  /** How many characters a branch consumes (the loop's own `++` included). */
  function Width(b: Branch): nat {
    match b
    case ParameterOpen => 3
    case ParameterClose => 3
    case TemplateOpen => 2
    case TemplateClose => 2
    case Inside => 1
    case Outside => 1
  }

  /** The local variables of the scan loop, plus the output list. */
  datatype State = State(
    idx: nat,
    inParameter: bool,
    openBrackets: int,
    templateSource: string,
    templates: seq<string>)

  /** The state before the first iteration. */
  const Initial: State := State(0, false, 0, "", [])

  /**
   * The branch taken at `idx`, checked in the PHP code's order; the three-brace
   * readings come before the two-brace ones, and a lookahead past the end
   * never matches a brace. The contract names each branch by the braces that
   * actually stand at `idx` (`Pair`, `Triple`), so the sentinel never shows.
   */
  function Classify(s: string, idx: nat, inParameter: bool, openBrackets: int): (b: Branch)
    requires idx < |s|
    ensures b == ParameterOpen <==> !inParameter && Triple(s, idx, '{')
    ensures b == ParameterClose <==> inParameter && Triple(s, idx, '}')
    ensures b == TemplateOpen <==> Pair(s, idx, '{') && !(!inParameter && Triple(s, idx, '{'))
    ensures b == TemplateClose <==> Pair(s, idx, '}') && !(inParameter && Triple(s, idx, '}'))
    ensures b == Inside <==> openBrackets > 0 && !Pair(s, idx, '{') && !Pair(s, idx, '}')
    ensures b == Outside <==> openBrackets <= 0 && !Pair(s, idx, '{') && !Pair(s, idx, '}')
  {
    var current := s[idx];
    var next := Lookahead(s, idx + 1);
    var nnext := Lookahead(s, idx + 2);
    if !inParameter && current == '{' && next == '{' && nnext == '{' then ParameterOpen
    else if inParameter && current == '}' && next == '}' && nnext == '}' then ParameterClose
    else if current == '{' && next == '{' then TemplateOpen
    else if current == '}' && next == '}' then TemplateClose
    else if openBrackets > 0 then Inside
    else Outside
  }

  /** The branch the loop takes from state `st`. */
  function BranchAt(s: string, st: State): Branch
    requires st.idx < |s|
  {
    Classify(s, st.idx, st.inParameter, st.openBrackets)
  }

  /** The step from `st` is a `}}` that brings the counter from one to zero. */
  predicate Completes(s: string, st: State)
    requires st.idx < |s|
  {
    BranchAt(s, st) == TemplateClose && st.openBrackets == 1
  }

  /** Whether the characters a step consumes are appended to the buffer. */
  predicate Records(b: Branch, openBrackets: int) {
    openBrackets > 0 || b == TemplateOpen || b == TemplateClose
  }

  /**
   * One iteration of the scan loop. It consumes one to three characters; it
   * moves the counter by +1 on `{{`, by -1 on `}}` and not otherwise; it either
   * appends exactly the characters consumed to the buffer or leaves the buffer
   * alone; and only a `}}` that brings the counter to zero checks the buffer,
   * emits it when valid, and clears it.
   */
  function Step(s: string, st: State): (r: State)
    requires st.idx < |s|
    ensures st.idx < r.idx <= |s| && r.idx == st.idx + Width(BranchAt(s, st))
    ensures BranchAt(s, st) == TemplateOpen ==> r.openBrackets == st.openBrackets + 1
    ensures BranchAt(s, st) == TemplateClose ==> r.openBrackets == st.openBrackets - 1
    ensures BranchAt(s, st) != TemplateOpen && BranchAt(s, st) != TemplateClose
            ==> r.openBrackets == st.openBrackets
    ensures r.inParameter == (BranchAt(s, st) == ParameterOpen
                              || (st.inParameter && BranchAt(s, st) != ParameterClose))
    ensures Completes(s, st) ==> r.templateSource == []
    ensures Completes(s, st) ==>
              var candidate := st.templateSource + s[st.idx..r.idx];
              r.templates == st.templates + Accepted(candidate)
    ensures !Completes(s, st) ==> r.templates == st.templates
    ensures !Completes(s, st) && Records(BranchAt(s, st), st.openBrackets)
            ==> r.templateSource == st.templateSource + s[st.idx..r.idx]
    ensures !Completes(s, st) && !Records(BranchAt(s, st), st.openBrackets)
            ==> r.templateSource == st.templateSource
  {
    var i := st.idx;
    match BranchAt(s, st)
    case ParameterOpen =>
      assert s[i..i + 3] == "{{{";
      st.(idx := i + 3, inParameter := true,
          templateSource := if st.openBrackets > 0 then st.templateSource + "{{{" else st.templateSource)
    case ParameterClose =>
      assert s[i..i + 3] == "}}}";
      st.(idx := i + 3, inParameter := false,
          templateSource := if st.openBrackets > 0 then st.templateSource + "}}}" else st.templateSource)
    case TemplateOpen =>
      assert s[i..i + 2] == "{{";
      st.(idx := i + 2, openBrackets := st.openBrackets + 1, templateSource := st.templateSource + "{{")
    case TemplateClose =>
      assert s[i..i + 2] == "}}";
      var source := st.templateSource + "}}";
      if st.openBrackets - 1 == 0 then
        st.(idx := i + 2, openBrackets := 0, templateSource := "",
            templates := st.templates + Accepted(source))
      else
        st.(idx := i + 2, openBrackets := st.openBrackets - 1, templateSource := source)
    case Inside =>
      assert s[i..i + 1] == [s[i]];
      st.(idx := i + 1, templateSource := st.templateSource + [s[i]])
    case Outside =>
      st.(idx := i + 1)
  }

  /**
   * The loop from `st` until the index reaches the end of `s`. It stops exactly
   * at the end, keeps every template found so far, and everything it adds
   * passes `IsValidTemplate`.
   */
  function Run(s: string, st: State): (r: State)
    requires st.idx <= |s|
    ensures r.idx == |s|
    ensures |st.templates| <= |r.templates| && r.templates[..|st.templates|] == st.templates
    ensures forall k :: |st.templates| <= k < |r.templates| ==> IsValidTemplate(r.templates[k])
    decreases |s| - st.idx
  {
    if st.idx == |s| then st else Run(s, Step(s, st))
  }

  /** The state after the whole loop on `s`. */
  function Scan(s: string): State {
    Run(s, Initial)
  }

  /** `findTemplates`: the templates the loop collects, every one valid. */
  function FindTemplates(s: string): (ts: seq<string>)
    ensures forall k :: 0 <= k < |ts| ==> IsValidTemplate(ts[k])
  {
    Scan(s).templates
  }

  /**
   * `findTemplates` as an imperative loop over the codepoints, written as the
   * PHP code writes it; it computes `FindTemplates(s)`.
   */
  method ScanTemplates(s: string) returns (templates: seq<string>)
    ensures templates == FindTemplates(s)
    ensures forall k :: 0 <= k < |templates| ==> IsValidTemplate(templates[k])
  {
    templates := [];
    var inParameter := false;
    var openBrackets := 0;
    var templateSource := "";
    var idx := 0;
    while idx < |s|
      invariant idx <= |s|
      invariant Run(s, State(idx, inParameter, openBrackets, templateSource, templates)) == Scan(s)
      decreases |s| - idx
    {
      ghost var before := State(idx, inParameter, openBrackets, templateSource, templates);
      var current := s[idx];
      var next := Lookahead(s, idx + 1);
      var nnext := Lookahead(s, idx + 2);
      if !inParameter && current == '{' && next == '{' && nnext == '{' {
        inParameter := true;
        idx := idx + 2;
        if openBrackets > 0 {
          templateSource := templateSource + "{{{";
        }
      } else if inParameter && current == '}' && next == '}' && nnext == '}' {
        inParameter := false;
        idx := idx + 2;
        if openBrackets > 0 {
          templateSource := templateSource + "}}}";
        }
      } else if current == '{' && next == '{' {
        openBrackets := openBrackets + 1;
        idx := idx + 1;
        templateSource := templateSource + "{{";
      } else if current == '}' && next == '}' {
        openBrackets := openBrackets - 1;
        idx := idx + 1;
        templateSource := templateSource + "}}";
        if openBrackets == 0 {
          if IsValidTemplate(templateSource) {
            templates := templates + [templateSource];
          }
          templateSource := "";
        }
      } else if openBrackets > 0 {
        templateSource := templateSource + [current];
      }
      idx := idx + 1;
      assert State(idx, inParameter, openBrackets, templateSource, templates) == Step(s, before);
    }
  }
}

=== FILE: scan_properties.dfy ===
/**
 * Properties of whole runs of the brace scanner: the loop consumes every
 * character exactly once, the counter is the net number of two-brace
 * delimiters read, and every emitted template is a piece of the text
 * running from a `{{` to a `}}`, the pieces disjoint and in text order,
 * each one opened where the counter rises from zero and closed where it
 * returns to zero.
 */
module ScanProperties {
  import opened Text
  import opened RecursiveParser
  import opened TemplateValidity

  // ---------------------------------------------------------------------------
  // The branches a run takes
  // ---------------------------------------------------------------------------

  /** The branches the loop takes from `st` to the end of `s`, in order. */
  ghost function Trace(s: string, st: State): seq<Branch>
    requires st.idx <= |s|
    decreases |s| - st.idx
  {
    if st.idx == |s| then [] else [BranchAt(s, st)] + Trace(s, Step(s, st))
  }

  /** How many entries of `t` are `b`. */
  function Count(t: seq<Branch>, b: Branch): nat {
    if t == [] then 0 else (if t[0] == b then 1 else 0) + Count(t[1..], b)
  }

  /** The number of characters the branches `t` consume together. */
  function TotalWidth(t: seq<Branch>): nat {
    if t == [] then 0 else Width(t[0]) + TotalWidth(t[1..])
  }

  /**
   * Termination, quantitatively: from any state the loop consumes exactly
   * the characters left, in at most that many iterations and at least a third
   * of that many.
   */
  lemma {:induction false} RunConsumesInput(s: string, st: State)
    requires st.idx <= |s|
    ensures TotalWidth(Trace(s, st)) == |s| - st.idx
    ensures |Trace(s, st)| <= |s| - st.idx <= 3 * |Trace(s, st)|
    decreases |s| - st.idx
  {
    if st.idx < |s| {
      var t := Trace(s, st);
      RunConsumesInput(s, Step(s, st));
      assert t[1..] == Trace(s, Step(s, st));
    }
  }

  /**
   * The counter at the end of a run is the counter at its start plus the
   * `{{` delimiters read minus the `}}` delimiters read; it is never clamped.
   */
  lemma {:induction false} CounterIsNetTemplateBraces(s: string, st: State)
    requires st.idx <= |s|
    ensures Run(s, st).openBrackets
            == st.openBrackets + Count(Trace(s, st), TemplateOpen) - Count(Trace(s, st), TemplateClose)
    decreases |s| - st.idx
  {
    if st.idx < |s| {
      var t := Trace(s, st);
      CounterIsNetTemplateBraces(s, Step(s, st));
      assert t[1..] == Trace(s, Step(s, st));
    }
  }

  /** A stray `}}` drives the counter below zero and nothing resets it. */
  lemma StrayCloseGoesNegative()
    ensures Scan("}}").openBrackets == -1
    ensures Scan("}}{{").openBrackets == 0
  {
    assert Pair("}}", 0, '}');
    assert Pair("}}{{", 0, '}') && Pair("}}{{", 2, '{');
  }

  // ---------------------------------------------------------------------------
  // Templates are ordered pieces of the text
  // ---------------------------------------------------------------------------

  /** A half-open range `[lo, hi)` of positions in the text. */
  datatype Span = Span(lo: nat, hi: nat)

  /** Each `items[k]` is the text of `s` in `spans[k]`. */
  ghost predicate Spells(s: string, items: seq<string>, spans: seq<Span>) {
    |items| == |spans|
    && forall k :: 0 <= k < |spans| ==>
         spans[k].lo <= spans[k].hi <= |s| && items[k] == s[spans[k].lo..spans[k].hi]
  }

  /** The spans are disjoint, in text order, and all end at or before `limit`. */
  ghost predicate InOrder(spans: seq<Span>, limit: nat) {
    (forall k :: 0 <= k < |spans| ==> spans[k].hi <= limit)
    && forall j, k :: 0 <= j < k < |spans| ==> spans[j].hi <= spans[k].lo
  }

  /** The state `p` is met by the loop started from `st`: it is `st` or comes after it. */
  ghost predicate Reaches(s: string, st: State, p: State)
    requires st.idx <= |s|
    decreases |s| - st.idx
  {
    p == st || (st.idx < |s| && Reaches(s, Step(s, st), p))
  }

  /** The state after a reached state is reached too. */
  lemma {:induction false} ReachesNext(s: string, st: State, p: State)
    requires st.idx <= |s| && Reaches(s, st, p) && p.idx < |s|
    ensures Reaches(s, st, Step(s, p))
    decreases |s| - st.idx
  {
    if p != st {
      ReachesNext(s, Step(s, st), p);
    }
  }

  /**
   * The scan of `s` meets `p` at position `lo` with the counter at zero, and
   * the `{{` there takes the counter from zero to one.
   */
  ghost predicate OpensAt(s: string, p: State, lo: nat) {
    Reaches(s, Initial, p) && p.idx == lo && lo < |s| && p.openBrackets == 0 && BranchAt(s, p) == TemplateOpen
  }

  /**
   * The scan of `s` meets `q` two positions before `hi`, and the `}}` there
   * takes the counter from one back to zero.
   */
  ghost predicate ClosesAt(s: string, q: State, hi: nat) {
    Reaches(s, Initial, q) && q.idx < |s| && q.idx + 2 == hi && Completes(s, q)
  }

  /** Counter zero and an empty buffer: no template is being read. */
  predicate Clean(st: State) {
    st.openBrackets == 0 && st.templateSource == []
  }

  /** A buffer that starts with `}`, left by a stray `}}`; it never passes `IsValidTemplate`. */
  predicate Junk(st: State) {
    |st.templateSource| > 0 && st.templateSource[0] == '}'
  }

  /**
   * The invariant of the scan with respect to the text: the templates so far
   * are ordered spans of `s` ending at or before `b`, and the buffer is either
   * clean, or junk, or — while the counter is positive — exactly the
   * text from `b` to the index.
   */
  ghost predicate Tracked(s: string, st: State, spans: seq<Span>, b: nat) {
    && st.idx <= |s| && b <= st.idx
    && Spells(s, st.templates, spans) && InOrder(spans, b)
    && (Clean(st) || Junk(st) || (st.openBrackets > 0 && st.templateSource == s[b..st.idx]))
  }

  /**
   * The part of the invariant that ties the spans to the loop itself: `st` is
   * reached from the initial state, each span runs from the state `opens[k]`
   * whose `{{` took the counter from zero to one to just past the `}}` of the
   * state `closes[k]` that brought it back, and a buffer that is neither clean
   * nor junk was started by the state `o` at `b`.
   */
  ghost predicate Anchored(s: string, st: State, spans: seq<Span>, b: nat,
                           o: State, opens: seq<State>, closes: seq<State>) {
    && st.idx <= |s| && Reaches(s, Initial, st)
    && |opens| == |spans| && |closes| == |spans|
    && (forall k :: 0 <= k < |spans| ==> OpensAt(s, opens[k], spans[k].lo) && ClosesAt(s, closes[k], spans[k].hi))
    && (!Clean(st) && !Junk(st) ==> OpensAt(s, o, b))
  }

  /** One iteration keeps the invariant. */
  lemma StepTracked(s: string, st: State, spans: seq<Span>, b: nat,
                    o: State, opens: seq<State>, closes: seq<State>)
    returns (spans': seq<Span>, b': nat, o': State, opens': seq<State>, closes': seq<State>)
    requires st.idx < |s| && Tracked(s, st, spans, b) && Anchored(s, st, spans, b, o, opens, closes)
    ensures Tracked(s, Step(s, st), spans', b') && Anchored(s, Step(s, st), spans', b', o', opens', closes')
  {
    ReachesNext(s, Initial, st);
    if Clean(st) {
      spans', b', o' := StepFromClean(s, st, spans, b, o, opens, closes);
      opens', closes' := opens, closes;
    } else if Junk(st) {
      spans', b', o', opens', closes' := spans, b, o, opens, closes;
      StepFromJunk(s, st, spans, b, o, opens, closes);
    } else {
      spans', b', o', opens', closes' := StepFromBuffered(s, st, spans, b, o, opens, closes);
    }
  }

  /** From a clean state, only a `{{` starts tracking a new piece, and it is the piece's anchor. */
  lemma StepFromClean(s: string, st: State, spans: seq<Span>, b: nat,
                      o: State, opens: seq<State>, closes: seq<State>)
    returns (spans': seq<Span>, b': nat, o': State)
    requires st.idx < |s| && Tracked(s, st, spans, b) && Anchored(s, st, spans, b, o, opens, closes)
    requires Clean(st) && Reaches(s, Initial, Step(s, st))
    ensures Tracked(s, Step(s, st), spans', b') && Anchored(s, Step(s, st), spans', b', o', opens, closes)
  {
    var r := Step(s, st);
    if BranchAt(s, st) == TemplateOpen {
      spans', b', o' := spans, st.idx, st;
      assert r.templateSource == s[st.idx..r.idx];
    } else {
      spans', b', o' := spans, b, o;
      assert Clean(r) || Junk(r);
    }
  }

  /** A junk buffer stays junk, or is dropped without being emitted. */
  lemma StepFromJunk(s: string, st: State, spans: seq<Span>, b: nat,
                     o: State, opens: seq<State>, closes: seq<State>)
    requires st.idx < |s| && Tracked(s, st, spans, b) && Anchored(s, st, spans, b, o, opens, closes)
    requires Junk(st) && Reaches(s, Initial, Step(s, st))
    ensures Tracked(s, Step(s, st), spans, b) && Anchored(s, Step(s, st), spans, b, o, opens, closes)
  {
    var r := Step(s, st);
    if Completes(s, st) {
      assert (st.templateSource + s[st.idx..r.idx])[0] == '}';
      assert Clean(r);
    } else {
      assert r.templateSource[0] == '}';
      assert Junk(r);
    }
  }

  /**
   * A buffer that is the text since `b` grows with the text, and is
   * emitted as the piece `[b, idx)`, anchored at `o` and at the closing state.
   */
  lemma StepFromBuffered(s: string, st: State, spans: seq<Span>, b: nat,
                         o: State, opens: seq<State>, closes: seq<State>)
    returns (spans': seq<Span>, b': nat, o': State, opens': seq<State>, closes': seq<State>)
    requires st.idx < |s| && Tracked(s, st, spans, b) && Anchored(s, st, spans, b, o, opens, closes)
    requires !Clean(st) && !Junk(st) && Reaches(s, Initial, Step(s, st))
    ensures Tracked(s, Step(s, st), spans', b') && Anchored(s, Step(s, st), spans', b', o', opens', closes')
  {
    var r := Step(s, st);
    if Completes(s, st) && IsValidTemplate(s[b..r.idx]) {
      spans', b', o' := spans + [Span(b, r.idx)], r.idx, o;
      opens', closes' := opens + [o], closes + [st];
      EmitTracked(s, st, spans, b);
      EmitAnchored(s, st, r, spans, b, o, opens, closes);
    } else {
      spans', b', o', opens', closes' := spans, b, o, opens, closes;
      KeepTracked(s, st, spans, b);
      KeepAnchored(s, st, r, spans, b, o, opens, closes);
    }
  }

  /** A `}}` that completes a valid buffer emits it as the piece `[b, idx)` and leaves the state clean. */
  lemma EmitTracked(s: string, st: State, spans: seq<Span>, b: nat)
    requires st.idx < |s| && Tracked(s, st, spans, b)
    requires st.openBrackets > 0 && st.templateSource == s[b..st.idx]
    requires Completes(s, st) && IsValidTemplate(s[b..Step(s, st).idx])
    ensures Tracked(s, Step(s, st), spans + [Span(b, Step(s, st).idx)], Step(s, st).idx)
    ensures Clean(Step(s, st)) && Step(s, st).idx == st.idx + 2
  {
    var r := Step(s, st);
    assert s[b..st.idx] + s[st.idx..r.idx] == s[b..r.idx];
    assert r.templates == st.templates + [s[b..r.idx]];
  }

  /** Any other step keeps the buffer tracked from `b`, or drops it without emitting. */
  lemma KeepTracked(s: string, st: State, spans: seq<Span>, b: nat)
    requires st.idx < |s| && Tracked(s, st, spans, b)
    requires st.openBrackets > 0 && st.templateSource == s[b..st.idx]
    requires !(Completes(s, st) && IsValidTemplate(s[b..Step(s, st).idx]))
    ensures Tracked(s, Step(s, st), spans, b)
  {
    var r := Step(s, st);
    assert s[b..st.idx] + s[st.idx..r.idx] == s[b..r.idx];
  }

  /** The span emitted by the `}}` of `st` is anchored at `o` and at `st`. */
  lemma EmitAnchored(s: string, st: State, r: State, spans: seq<Span>, b: nat,
                     o: State, opens: seq<State>, closes: seq<State>)
    requires st.idx < |s| && Anchored(s, st, spans, b, o, opens, closes) && !Clean(st) && !Junk(st)
    requires Completes(s, st) && r.idx == st.idx + 2 && r.idx <= |s| && Clean(r) && Reaches(s, Initial, r)
    ensures Anchored(s, r, spans + [Span(b, r.idx)], r.idx, o, opens + [o], closes + [st])
  {
    assert ClosesAt(s, st, r.idx);
  }

  /** Without an emission the anchors stay, and so does the anchor of the buffer. */
  lemma KeepAnchored(s: string, st: State, r: State, spans: seq<Span>, b: nat,
                     o: State, opens: seq<State>, closes: seq<State>)
    requires Anchored(s, st, spans, b, o, opens, closes) && !Clean(st) && !Junk(st)
    requires r.idx <= |s| && Reaches(s, Initial, r)
    ensures Anchored(s, r, spans, b, o, opens, closes)
  {
  }

  /** A run from a tracked state emits ordered spans of the text, each anchored in the run. */
  lemma {:induction false} RunTracked(s: string, st: State, spans: seq<Span>, b: nat,
                                      o: State, opens: seq<State>, closes: seq<State>)
    returns (spans': seq<Span>, opens': seq<State>, closes': seq<State>)
    requires Tracked(s, st, spans, b) && Anchored(s, st, spans, b, o, opens, closes)
    ensures Spells(s, Run(s, st).templates, spans') && InOrder(spans', |s|)
    ensures |opens'| == |spans'| && |closes'| == |spans'|
    ensures forall k :: 0 <= k < |spans'| ==> OpensAt(s, opens'[k], spans'[k].lo) && ClosesAt(s, closes'[k], spans'[k].hi)
    decreases |s| - st.idx
  {
    if st.idx == |s| {
      spans', opens', closes' := spans, opens, closes;
    } else {
      var spans1, b1, o1, opens1, closes1 := StepTracked(s, st, spans, b, o, opens, closes);
      spans', opens', closes' := RunTracked(s, Step(s, st), spans1, b1, o1, opens1, closes1);
    }
  }

  /**
   * Every returned template is the text between a `{{` and a `}}`,
   * and the templates do not overlap and appear in text order. Each one
   * starts where the scan, at counter zero, read the `{{` that took the
   * counter to one (`opens[k]`), and ends just after the `}}` that brought it
   * back to zero (`closes[k]`).
   */
  lemma TemplatesAreOrderedSpans(s: string) returns (spans: seq<Span>, opens: seq<State>, closes: seq<State>)
    ensures Spells(s, FindTemplates(s), spans) && InOrder(spans, |s|)
    ensures forall k :: 0 <= k < |spans| ==>
              spans[k].lo + 5 <= spans[k].hi
              && StartsAt(s, spans[k].lo, "{{") && StartsAt(s, spans[k].hi - 2, "}}")
    ensures |opens| == |spans| && |closes| == |spans|
    ensures forall k :: 0 <= k < |spans| ==> OpensAt(s, opens[k], spans[k].lo) && ClosesAt(s, closes[k], spans[k].hi)
  {
    assert Reaches(s, Initial, Initial);
    spans, opens, closes := RunTracked(s, Initial, [], 0, Initial, [], []);
    var ts := FindTemplates(s);
    forall k | 0 <= k < |spans|
      ensures spans[k].lo + 5 <= spans[k].hi
      ensures StartsAt(s, spans[k].lo, "{{") && StartsAt(s, spans[k].hi - 2, "}}")
    {
      var t := ts[k];
      assert IsValidTemplate(t);
      assert t[..2] == s[spans[k].lo..spans[k].lo + 2];
      assert t[..2] == "{{";
      assert t[|t| - 2..] == s[spans[k].hi - 2..spans[k].hi];
      assert t[|t| - 2..] == "}}";
    }
  }

  /** A template can only be returned where the text has a `}}`. */
  lemma TemplateNeedsClose(s: string)
    ensures FindTemplates(s) != [] ==> exists i :: 0 <= i < |s| && StartsAt(s, i, "}}")
  {
    var spans, _, _ := TemplatesAreOrderedSpans(s);
    if |spans| > 0 {
      assert StartsAt(s, spans[0].hi - 2, "}}");
    }
  }

  /**
   * Without a `}}` anywhere in the text — an unterminated `{{` at the end, for
   * one — no template is returned.
   */
  lemma NoCloseNoTemplates(s: string)
    requires forall i :: 0 <= i < |s| ==> !StartsAt(s, i, "}}")
    ensures FindTemplates(s) == []
  {
    TemplateNeedsClose(s);
  }

  /** The unterminated `{{` yields no template. */
  lemma UnclosedTemplate()
    ensures FindTemplates("{{") == []
  {
    forall i | 0 <= i < |"{{"|
      ensures !StartsAt("{{", i, "}}")
    {
      StartsAtIndex("{{", i, "}}");
      assert "{{"[i + 0] != "}}"[0];
    }
    NoCloseNoTemplates("{{");
  }

  // ---------------------------------------------------------------------------
  // Parameters at counter zero
  // ---------------------------------------------------------------------------

  /** No position of `s` from `lo` up to (not including) `hi` holds a brace. */
  predicate BraceFreeBetween(s: string, lo: int, hi: int) {
    forall i :: lo <= i < hi ==> 0 <= i < |s| && s[i] != '{' && s[i] != '}'
  }

  /** `p` holds no brace at all. */
  predicate BraceFree(p: string) {
    BraceFreeBetween(p, 0, |p|)
  }

  /** A brace-free piece of a text holds no brace at any of its positions. */
  lemma BraceFreeSlice(s: string, lo: nat, hi: nat, w: string)
    requires lo <= hi <= |s| && s[lo..hi] == w && BraceFree(w)
    ensures BraceFreeBetween(s, lo, hi)
  {
    forall i | lo <= i < hi
      ensures s[i] != '{' && s[i] != '}'
    {
      assert s[i] == w[i - lo];
    }
  }

  /**
   * Inside a parameter at counter zero, brace-free text is dropped and the
   * closing `}}}` ends the run without emitting anything.
   */
  lemma {:induction false} ParameterTailEmitsNothing(s: string, st: State)
    requires st.idx + 3 <= |s| && Triple(s, |s| - 3, '}')
    requires BraceFreeBetween(s, st.idx, |s| - 3)
    requires st.inParameter && st.openBrackets == 0
    ensures Run(s, st).templates == st.templates
    decreases |s| - st.idx
  {
    if st.idx == |s| - 3 {
      assert Step(s, st).idx == |s|;
    } else {
      ParameterTailEmitsNothing(s, Step(s, st));
    }
  }

  /**
   * A parameter `{{{param}}}` with a brace-free body that ends the text, met
   * at counter zero outside a parameter, adds nothing.
   */
  lemma ParameterAtEnd(s: string, st: State, param: string)
    requires BraceFree(param)
    requires st.idx + |param| + 6 == |s| && s[st.idx..] == "{{{" + param + "}}}"
    requires !st.inParameter && st.openBrackets == 0
    ensures Run(s, st).templates == st.templates
  {
    ParameterPieces(s, st.idx, param);
    var inParam := OpenParameter(s, st);
    ParameterTailEmitsNothing(s, inParam);
  }

  /** The pieces of a parameter `{{{param}}}` that ends `s` at position `i`. */
  lemma ParameterPieces(s: string, i: nat, param: string)
    requires BraceFree(param)
    requires i + |param| + 6 == |s| && s[i..] == "{{{" + param + "}}}"
    ensures Triple(s, i, '{') && Triple(s, |s| - 3, '}')
    ensures BraceFreeBetween(s, i + 3, |s| - 3)
  {
    var tail := "{{{" + param + "}}}";
    assert forall k :: i <= k < |s| ==> s[k] == tail[k - i];
    assert forall k :: 0 <= k < |param| ==> tail[k + 3] == param[k];
    assert tail[0] == tail[1] == tail[2] == '{';
    assert tail[|param| + 3] == tail[|param| + 4] == tail[|param| + 5] == '}';
    forall k | i + 3 <= k < |s| - 3
      ensures s[k] != '{' && s[k] != '}'
    {
      assert s[k] == tail[(k - i - 3) + 3] == param[k - i - 3];
    }
  }

  /** A `{{{` at counter zero outside a parameter only enters the parameter. */
  lemma OpenParameter(s: string, st: State) returns (next: State)
    requires Triple(s, st.idx, '{') && !st.inParameter && st.openBrackets == 0
    ensures next == st.(idx := st.idx + 3, inParameter := true)
    ensures Run(s, st) == Run(s, next)
  {
    next := Step(s, st);
  }

  /** A lone parameter such as `{{{Param1}}}` yields no template. */
  lemma LoneParameterYieldsNothing(param: string)
    requires BraceFree(param)
    ensures FindTemplates("{{{" + param + "}}}") == []
  {
    ParameterAtEnd("{{{" + param + "}}}", Initial, param);
  }

  // ---------------------------------------------------------------------------
  // Runs over simple pieces of text, and the inputs of the repository's tests
  // ---------------------------------------------------------------------------

  /** Within an open template, a character that is not a brace is appended to the buffer. */
  lemma StepPlainInside(s: string, st: State)
    requires st.idx < |s| && s[st.idx] != '{' && s[st.idx] != '}' && st.openBrackets > 0
    ensures Step(s, st) == st.(idx := st.idx + 1, templateSource := st.templateSource + [s[st.idx]])
  {
    assert BranchAt(s, st) == Inside;
    assert s[st.idx..st.idx + 1] == [s[st.idx]];
  }

  /** At counter zero or below, a character that is not a brace is only skipped. */
  lemma StepPlainOutside(s: string, st: State)
    requires st.idx < |s| && s[st.idx] != '{' && s[st.idx] != '}' && st.openBrackets <= 0
    ensures Step(s, st) == st.(idx := st.idx + 1)
  {
    assert BranchAt(s, st) == Outside;
  }

  /** Within an open template, brace-free text is appended to the buffer as it stands. */
  lemma {:induction false} InsideText(s: string, st: State, j: nat)
    requires st.idx <= j <= |s| && st.openBrackets > 0
    requires BraceFreeBetween(s, st.idx, j)
    ensures Run(s, st) == Run(s, st.(idx := j, templateSource := st.templateSource + s[st.idx..j]))
    decreases j - st.idx
  {
    if st.idx == j {
      assert st.templateSource + s[st.idx..j] == st.templateSource;
    } else {
      StepPlainInside(s, st);
      var next := st.(idx := st.idx + 1, templateSource := st.templateSource + [s[st.idx]]);
      InsideText(s, next, j);
      AppendOneMore(st.templateSource, s, st.idx, j);
    }
  }

  /** Appending one character and then the rest of a slice appends the whole slice. */
  lemma AppendOneMore(a: string, s: string, i: nat, j: nat)
    requires i < j <= |s|
    ensures (a + [s[i]]) + s[i + 1..j] == a + s[i..j]
  {
    assert s[i..j] == [s[i]] + s[i + 1..j];
  }

  /** At counter zero or below, brace-free text is skipped without a trace. */
  lemma {:induction false} OutsideText(s: string, st: State, j: nat)
    requires st.idx <= j <= |s| && st.openBrackets <= 0
    requires BraceFreeBetween(s, st.idx, j)
    ensures Run(s, st) == Run(s, st.(idx := j))
    decreases j - st.idx
  {
    if st.idx < j {
      StepPlainOutside(s, st);
      OutsideText(s, st.(idx := st.idx + 1), j);
    }
  }

  /**
   * From a clean state outside any parameter, a template `{{name}}` with a
   * brace-free name is read as one unit: it is emitted exactly when
   * `IsValidTemplate` accepts it, and the scan continues clean after it.
   */
  lemma SimpleTemplate(s: string, st: State, name: string)
    requires BraceFree(name)
    requires StartsAt(s, st.idx, "{{" + name + "}}")
    requires !st.inParameter && st.openBrackets == 0 && st.templateSource == []
    ensures Run(s, st) == Run(s, st.(idx := st.idx + |name| + 4,
                                     templates := st.templates + Accepted("{{" + name + "}}")))
  {
    var i := st.idx;
    var e := i + 2 + |name|;
    var t := "{{" + name + "}}";
    WrappedPieces(s, i, name);
    var s0 := State(i, false, 0, "", st.templates);
    var s1 := State(i + 2, false, 1, "{{", st.templates);
    var s2 := State(e, false, 1, "{{" + name, st.templates);
    var s3 := State(e + 2, false, 0, "", st.templates + Accepted(t));
    assert st == s0;
    OpenTemplate(s, i, st.templates);
    TemplateText(s, i + 2, e, false, "{{", st.templates);
    assert State(e, false, 1, "{{" + s[i + 2..e], st.templates) == s2;
    CloseTemplate(s, e, "{{" + name, st.templates);
    assert Run(s, s0) == Run(s, s1) == Run(s, s2) == Run(s, s3);
    assert st.(idx := st.idx + |name| + 4, templates := st.templates + Accepted(t)) == s3;
  }

  /** Brace-free text read at counter one joins the buffer, in or out of a parameter. */
  lemma TemplateText(s: string, i: nat, j: nat, inParameter: bool, buf: string, templates: seq<string>)
    requires i <= j <= |s|
    requires BraceFreeBetween(s, i, j)
    ensures Run(s, State(i, inParameter, 1, buf, templates))
            == Run(s, State(j, inParameter, 1, buf + s[i..j], templates))
  {
    InsideText(s, State(i, inParameter, 1, buf, templates), j);
  }

  /** The pieces of `{{name}}` found at position `i` of `s`. */
  lemma WrappedPieces(s: string, i: nat, name: string)
    requires BraceFree(name)
    requires StartsAt(s, i, "{{" + name + "}}")
    ensures var e := i + 2 + |name|;
            Pair(s, i, '{') && !Triple(s, i, '{') && Pair(s, e, '}')
            && s[i + 2..e] == name
            && BraceFreeBetween(s, i + 2, e)
  {
    var t := "{{" + name + "}}";
    var e := i + 2 + |name|;
    StartsAtIndex(s, i, t);
    assert |t| == |name| + 4;
    assert forall k :: 0 <= k < |name| ==> t[k + 2] == name[k];
    assert s[i] == t[0] == '{' && s[i + 1] == t[1] == '{';
    assert s[e] == t[|name| + 2] == '}' && s[e + 1] == t[|name| + 3] == '}';
    forall k | 0 <= k < |name|
      ensures s[i + 2..e][k] == name[k]
    {
      assert s[i + 2..e][k] == s[i + (k + 2)] == t[k + 2];
    }
    forall k | i + 2 <= k < e
      ensures s[k] != '{' && s[k] != '}'
    {
      assert s[k] == s[i + ((k - i - 2) + 2)] == t[(k - i - 2) + 2] == name[k - i - 2];
    }
    assert s[i + 2] == t[2];
  }

  /** The opening `{{` of a template read by `SimpleTemplate`. */
  lemma OpenTemplate(s: string, i: nat, templates: seq<string>)
    requires Pair(s, i, '{') && !Triple(s, i, '{')
    ensures Run(s, State(i, false, 0, "", templates)) == Run(s, State(i + 2, false, 1, "{{", templates))
  {
    var next := Step(s, State(i, false, 0, "", templates));
    assert s[i..next.idx] == "{{";
    assert next == State(i + 2, false, 1, "{{", templates);
  }

  /** A `}}` that brings the counter from one to zero emits the buffer when it is valid. */
  lemma CloseTemplate(s: string, i: nat, buf: string, templates: seq<string>)
    requires Pair(s, i, '}')
    ensures Run(s, State(i, false, 1, buf, templates))
            == Run(s, State(i + 2, false, 0, "", templates + Accepted(buf + "}}")))
  {
    var next := Step(s, State(i, false, 1, buf, templates));
    assert s[i..next.idx] == "}}";
  }

  /**
   * A template with a brace-free name between brace-free texts is returned
   * exactly when it is valid; ` {{ }} ` returns `{{ }}`.
   */
  lemma SurroundedTemplate(pre: string, name: string, post: string)
    requires BraceFree(pre) && BraceFree(name) && BraceFree(post)
    ensures FindTemplates(pre + ("{{" + name + "}}") + post) == Accepted("{{" + name + "}}")
  {
    var t := "{{" + name + "}}";
    var s := pre + t + post;
    var e := |pre| + |t|;
    ThreePieces(pre, t, post);
    BraceFreeSlice(s, 0, |pre|, pre);
    OutsideText(s, Initial, |pre|);
    var st1 := State(|pre|, false, 0, "", []);
    assert Initial.(idx := |pre|) == st1;
    SimpleTemplate(s, st1, name);
    var st2 := State(e, false, 0, "", Accepted(t));
    assert st1.(idx := st1.idx + |name| + 4, templates := st1.templates + Accepted(t)) == st2;
    BraceFreeSlice(s, e, |s|, post);
    OutsideText(s, st2, |s|);
    assert Run(s, st2.(idx := |s|)) == st2.(idx := |s|);
  }

  /** `{{ }}`, read from ` {{ }} `, is the shortest template returned, and `{{}}` is not one. */
  lemma ShortestTemplates()
    ensures FindTemplates(" {{ }} ") == ["{{ }}"]
    ensures FindTemplates("{{}}") == []
  {
    WrappedNameIsValid(" ");
    SurroundedTemplate(" ", " ", " ");
    assert "{{" + " " + "}}" == "{{ }}";
    assert " " + "{{ }}" + " " == " {{ }} ";
    WrappedNameIsValid("");
    SurroundedTemplate("", "", "");
    assert "" + ("{{" + "" + "}}") + "" == "{{}}";
  }

  /** A parser function such as `{{#Example}}` is not returned. */
  lemma ParserFunctionIsDropped()
    ensures FindTemplates("{{#Example}}") == []
  {
    WrappedNameIsValid("#Example");
    SurroundedTemplate("", "#Example", "");
    assert "" + ("{{" + "#Example" + "}}") + "" == "{{#Example}}";
  }

  /** The two parts of a concatenation, found where they were put. */
  lemma Juxtaposed(x: string, y: string)
    ensures StartsAt(x + y, 0, x) && StartsAt(x + y, |x|, y)
    ensures (x + y)[..|x|] == x && (x + y)[|x|..] == y
  {
  }

  /** The three parts of a concatenation, found where they were put. */
  lemma ThreePieces(x: string, y: string, z: string)
    ensures StartsAt(x + y + z, 0, x) && (x + y + z)[0..|x|] == x && StartsAt(x + y + z, |x|, y)
    ensures (x + y + z)[|x| + |y|..|x + y + z|] == z
    ensures (x + y + z)[|x|..|x| + |y|] == y && (x + y + z)[|x| + |y|..] == z
  {
    var s := x + y + z;
    assert s[..|x|] == x;
    assert s[|x|..|x| + |y|] == (x + y)[|x|..];
  }

  /**
   * Two adjacent templates are returned in text order, each when valid;
   * `{{Example}}{{Example}}` returns `{{Example}}` twice.
   */
  lemma TwoTemplates(a: string, b: string)
    requires BraceFree(a) && BraceFree(b)
    ensures FindTemplates(("{{" + a + "}}") + ("{{" + b + "}}"))
            == Accepted("{{" + a + "}}") + Accepted("{{" + b + "}}")
  {
    var ta := "{{" + a + "}}";
    var tb := "{{" + b + "}}";
    var s := ta + tb;
    Juxtaposed(ta, tb);
    SimpleTemplate(s, Initial, a);
    var mid := State(|ta|, false, 0, "", Accepted(ta));
    assert Initial.(idx := Initial.idx + |a| + 4, templates := Initial.templates + Accepted(ta)) == mid;
    SimpleTemplate(s, mid, b);
    var end := State(|s|, false, 0, "", Accepted(ta) + Accepted(tb));
    assert mid.(idx := mid.idx + |b| + 4, templates := mid.templates + Accepted(tb)) == end;
    assert Run(s, end) == end;
  }

  /**
   * Plain text and a parameter after a template add nothing to what the
   * template contributes; `{{Example}} Lorem ipsum {{{Param1}}}` returns only
   * `{{Example}}`.
   */
  lemma TemplateTextParameter(name: string, text: string, param: string)
    requires BraceFree(name) && BraceFree(text) && BraceFree(param)
    ensures FindTemplates(("{{" + name + "}}") + text + ("{{{" + param + "}}}")) == Accepted("{{" + name + "}}")
  {
    var t := "{{" + name + "}}";
    var tail := "{{{" + param + "}}}";
    var s := t + text + tail;
    var p0 := |t| + |text|;
    ThreePieces(t, text, tail);
    SimpleTemplate(s, Initial, name);
    var st := State(|t|, false, 0, "", Accepted(t));
    assert Initial.(idx := Initial.idx + |name| + 4, templates := Initial.templates + Accepted(t)) == st;
    BraceFreeSlice(s, |t|, p0, text);
    OutsideText(s, st, p0);
    ParameterAtEnd(s, st.(idx := p0), param);
  }

  /** A `{{{` inside an open template enters the parameter and joins the buffer. */
  lemma OpenNestedParameter(s: string, i: nat, buf: string, templates: seq<string>)
    requires Triple(s, i, '{')
    ensures Run(s, State(i, false, 1, buf, templates)) == Run(s, State(i + 3, true, 1, buf + "{{{", templates))
  {
    var next := Step(s, State(i, false, 1, buf, templates));
    assert s[i..next.idx] == "{{{";
  }

  /** A `}}}` inside a parameter inside an open template leaves the parameter and joins the buffer. */
  lemma CloseNestedParameter(s: string, i: nat, buf: string, templates: seq<string>)
    requires Triple(s, i, '}')
    ensures Run(s, State(i, true, 1, buf, templates)) == Run(s, State(i + 3, false, 1, buf + "}}}", templates))
  {
    var next := Step(s, State(i, true, 1, buf, templates));
    assert s[i..next.idx] == "}}}";
  }

  /** The pieces of `{{name{{{param}}}}}` up to the parameter's body. */
  lemma NestedHead(name: string, param: string)
    requires BraceFree(name) && |name| >= 1
    ensures var s := "{{" + name + "{{{" + param + "}}}" + "}}";
            var e1 := 2 + |name|;
            e1 + 3 <= |s| && Pair(s, 0, '{') && !Triple(s, 0, '{')
            && s[2..e1] == name && BraceFreeBetween(s, 2, e1)
            && Triple(s, e1, '{')
  {
    var s := "{{" + name + "{{{" + param + "}}}" + "}}";
    var e1 := 2 + |name|;
    assert forall k :: 0 <= k < |name| ==> s[2 + k] == name[k];
    assert s[0] == s[1] == s[e1] == s[e1 + 1] == s[e1 + 2] == '{';
    assert s[2] == name[0];
    assert s[2..e1] == name;
    forall k | 2 <= k < e1
      ensures s[k] != '{' && s[k] != '}'
    {
      assert s[k] == name[k - 2];
    }
  }

  /** The parameter's body and closing braces in `{{name{{{param}}}}}`. */
  lemma NestedTail(name: string, param: string)
    requires BraceFree(param)
    ensures var s := "{{" + name + "{{{" + param + "}}}" + "}}";
            var i := |name| + 5;
            var j := i + |param|;
            j + 5 == |s|
            && s[i..j] == param && BraceFreeBetween(s, i, j)
            && Triple(s, j, '}') && Pair(s, j + 3, '}')
  {
    var s := "{{" + name + "{{{" + param + "}}}" + "}}";
    var i := |name| + 5;
    var j := i + |param|;
    assert forall k :: 0 <= k < |param| ==> s[i + k] == param[k];
    assert s[j] == s[j + 1] == s[j + 2] == s[j + 3] == s[j + 4] == '}';
    assert s[i..j] == param;
    forall k | i <= k < j
      ensures s[k] != '{' && s[k] != '}'
    {
      assert s[k] == param[k - i];
    }
  }

  /**
   * A parameter inside a template stays in the template's text, and the
   * template is returned whole; `{{Example|{{{Param1}}}}}` returns itself.
   */
  lemma TemplateWithParameter(name: string, param: string)
    requires BraceFree(name) && BraceFree(param) && |name| >= 1
    ensures var s := "{{" + name + "{{{" + param + "}}}" + "}}";
            FindTemplates(s) == Accepted(s)
  {
    var s := "{{" + name + "{{{" + param + "}}}" + "}}";
    var e2 := |name| + 5 + |param|;
    var s6 := State(e2 + 5, false, 0, "", [] + Accepted(s));
    NestedStages(name, param);
    assert Run(s, s6) == s6;
  }

  /** The three stages of the run over `{{name{{{param}}}}}`, chained. */
  lemma NestedStages(name: string, param: string)
    requires BraceFree(name) && BraceFree(param) && |name| >= 1
    ensures var s := "{{" + name + "{{{" + param + "}}}" + "}}";
            Run(s, Initial) == Run(s, State(|s|, false, 0, "", [] + Accepted(s)))
  {
    NestedStage1(name, param);
    NestedStage2(name, param);
    NestedStage3(name, param);
  }

  /** The run over `{{name{{{param}}}}}` up to the parameter's body. */
  lemma NestedStage1(name: string, param: string)
    requires BraceFree(name) && BraceFree(param) && |name| >= 1
    ensures var s := "{{" + name + "{{{" + param + "}}}" + "}}";
            Run(s, Initial) == Run(s, State(|name| + 5, true, 1, "{{" + name + "{{{", []))
  {
    var s := "{{" + name + "{{{" + param + "}}}" + "}}";
    NestedHead(name, param);
    NestedOpening(s, 2 + |name|, name);
    assert Initial == State(0, false, 0, "", []);
  }

  /** The run over `{{name{{{param}}}}}` through the parameter's body and its `}}}`. */
  lemma NestedStage2(name: string, param: string)
    requires BraceFree(name) && BraceFree(param) && |name| >= 1
    ensures var s := "{{" + name + "{{{" + param + "}}}" + "}}";
            Run(s, State(|name| + 5, true, 1, "{{" + name + "{{{", []))
            == Run(s, State(|name| + |param| + 8, false, 1, "{{" + name + "{{{" + param + "}}}", []))
  {
    var s := "{{" + name + "{{{" + param + "}}}" + "}}";
    NestedTail(name, param);
    NestedParameterAt(s, name, param);
  }

  /** `NestedStage2` for any text laid out as `NestedTail` describes. */
  lemma NestedParameterAt(s: string, name: string, param: string)
    requires var i := |name| + 5;
             var j := i + |param|;
             j + 5 == |s| && s[i..j] == param && BraceFreeBetween(s, i, j) && Triple(s, j, '}')
    ensures Run(s, State(|name| + 5, true, 1, "{{" + name + "{{{", []))
            == Run(s, State(|name| + |param| + 8, false, 1, "{{" + name + "{{{" + param + "}}}", []))
  {
    var buf := "{{" + name + "{{{";
    var j := |name| + 5 + |param|;
    NestedParameterBody(s, |name| + 5, j, buf, param);
    assert State(j + 3, false, 1, buf + param + "}}}", [])
           == State(|name| + |param| + 8, false, 1, "{{" + name + "{{{" + param + "}}}", []);
  }

  /** The run over `{{name{{{param}}}}}` through the closing `}}`. */
  lemma NestedStage3(name: string, param: string)
    requires BraceFree(name) && BraceFree(param) && |name| >= 1
    ensures var s := "{{" + name + "{{{" + param + "}}}" + "}}";
            Run(s, State(|name| + |param| + 8, false, 1, "{{" + name + "{{{" + param + "}}}", []))
            == Run(s, State(|s|, false, 0, "", [] + Accepted(s)))
  {
    var s := "{{" + name + "{{{" + param + "}}}" + "}}";
    NestedTail(name, param);
    CloseTemplate(s, |name| + |param| + 8, "{{" + name + "{{{" + param + "}}}", []);
  }

  /** `{{name{{{` read from the start of `s`. */
  lemma NestedOpening(s: string, e1: nat, name: string)
    requires 2 <= e1 && e1 + 3 <= |s|
    requires Pair(s, 0, '{') && !Triple(s, 0, '{')
    requires s[2..e1] == name && BraceFreeBetween(s, 2, e1)
    requires Triple(s, e1, '{')
    ensures Run(s, State(0, false, 0, "", [])) == Run(s, State(e1 + 3, true, 1, "{{" + name + "{{{", []))
  {
    var s1 := State(2, false, 1, "{{", []);
    var s2 := State(e1, false, 1, "{{" + name, []);
    OpenTemplate(s, 0, []);
    TemplateText(s, 2, e1, false, "{{", []);
    OpenNestedParameter(s, e1, "{{" + name, []);
    assert Run(s, State(0, false, 0, "", [])) == Run(s, s1) == Run(s, s2);
  }

  /** `param}}}` read inside a parameter inside an open template. */
  lemma NestedParameterBody(s: string, i: nat, j: nat, buf: string, param: string)
    requires i <= j <= |s|
    requires s[i..j] == param && BraceFreeBetween(s, i, j)
    requires Triple(s, j, '}')
    ensures Run(s, State(i, true, 1, buf, [])) == Run(s, State(j + 3, false, 1, buf + param + "}}}", []))
  {
    TemplateText(s, i, j, true, buf, []);
    CloseNestedParameter(s, j, buf + param, []);
    assert Run(s, State(j, true, 1, buf + s[i..j], [])) == Run(s, State(j, true, 1, buf + param, []));
  }

  // ---------------------------------------------------------------------------
  // Where the flat counter departs from balanced brace matching
  // ---------------------------------------------------------------------------

  /** A `}}` that does not bring the counter from one to zero only joins the buffer. */
  lemma CloseWithoutEmitting(s: string, i: nat, ob: int, buf: string, templates: seq<string>)
    requires Pair(s, i, '}') && ob != 1
    ensures Run(s, State(i, false, ob, buf, templates)) == Run(s, State(i + 2, false, ob - 1, buf + "}}", templates))
  {
    var next := Step(s, State(i, false, ob, buf, templates));
    assert s[i..next.idx] == "}}";
  }

  /** A `{{` that is not `{{{` raises the counter and joins the buffer, whatever the counter was. */
  lemma OpenAtAnyCount(s: string, i: nat, ob: int, buf: string, templates: seq<string>)
    requires Pair(s, i, '{') && !Triple(s, i, '{')
    ensures Run(s, State(i, false, ob, buf, templates)) == Run(s, State(i + 2, false, ob + 1, buf + "{{", templates))
  {
    var next := Step(s, State(i, false, ob, buf, templates));
    assert s[i..next.idx] == "{{";
  }

  /** The pieces of `}}{{name}}`. */
  lemma StrayPieces(name: string)
    requires BraceFree(name)
    ensures var s := "}}" + ("{{" + name + "}}");
            var e := 4 + |name|;
            e + 2 == |s| && Pair(s, 0, '}') && Pair(s, 2, '{') && !Triple(s, 2, '{')
            && BraceFreeBetween(s, 4, e) && Pair(s, e, '}')
  {
    var s := "}}" + ("{{" + name + "}}");
    var e := 4 + |name|;
    assert forall k :: 0 <= k < |name| ==> s[4 + k] == name[k];
    assert s[0] == s[1] == s[e] == s[e + 1] == '}' && s[2] == s[3] == '{';
    if |name| > 0 {
      assert s[4] == name[0];
    }
    forall k | 4 <= k < e
      ensures s[k] != '{' && s[k] != '}'
    {
      assert s[k] == name[k - 4];
    }
  }

  /**
   * A stray `}}` before a template hides it: the counter, left at -1, only
   * climbs back to zero at the `{{`, so the name is read as outside text and
   * the closing `}}` never completes. `}}{{Example}}` returns nothing.
   */
  lemma StrayCloseHidesTemplate(name: string)
    requires BraceFree(name)
    ensures FindTemplates("}}" + ("{{" + name + "}}")) == []
  {
    var s := "}}" + ("{{" + name + "}}");
    var e := 4 + |name|;
    StrayPieces(name);
    var s1 := State(2, false, -1, "}}", []);
    var s2 := State(4, false, 0, "}}{{", []);
    var s3 := State(e, false, 0, "}}{{", []);
    var s4 := State(e + 2, false, -1, "}}{{}}", []);
    CloseWithoutEmitting(s, 0, 0, "", []);
    assert "" + "}}" == "}}";
    OpenAtAnyCount(s, 2, -1, "}}", []);
    assert "}}" + "{{" == "}}{{";
    OutsideText(s, s2, e);
    assert s2.(idx := e) == s3;
    CloseWithoutEmitting(s, e, 0, "}}{{", []);
    assert "}}{{" + "}}" == "}}{{}}";
    assert Run(s, Initial) == Run(s, s1) == Run(s, s2) == Run(s, s3) == Run(s, s4) == s4;
  }

  /** Inside a parameter `{{` always opens a template: the three-brace test is skipped there. */
  lemma OpenInParameter(s: string, i: nat, buf: string, templates: seq<string>)
    requires Pair(s, i, '{')
    ensures Run(s, State(i, true, 0, buf, templates)) == Run(s, State(i + 2, true, 1, buf + "{{", templates))
  {
    var next := Step(s, State(i, true, 0, buf, templates));
    assert s[i..next.idx] == "{{";
  }

  /** Inside a parameter, a `}}` that is not `}}}` and brings the counter to zero emits the buffer when valid. */
  lemma CloseInParameter(s: string, i: nat, buf: string, templates: seq<string>)
    requires Pair(s, i, '}') && !Triple(s, i, '}')
    ensures Run(s, State(i, true, 1, buf, templates))
            == Run(s, State(i + 2, true, 0, "", templates + Accepted(buf + "}}")))
  {
    var next := Step(s, State(i, true, 1, buf, templates));
    assert s[i..next.idx] == "}}";
  }

  /**
   * The flat scan does not skip the body of an unterminated top-level
   * parameter: a template inside it is still returned when valid.
   * `{{{a{{Example}}` returns `{{Example}}`.
   */
  lemma TemplateInOpenParameter(text: string, name: string)
    requires BraceFree(text) && BraceFree(name)
    ensures FindTemplates("{{{" + text + ("{{" + name + "}}")) == Accepted("{{" + name + "}}")
  {
    var s := "{{{" + text + ("{{" + name + "}}");
    var p := 3 + |text|;
    var e := p + 2 + |name|;
    OpenParameterPieces(text, name);
    IntoParameter(s, p);
    TemplateInParameter(s, p, e, name);
    var last := State(e + 2, true, 0, "", [] + Accepted("{{" + name + "}}"));
    assert Run(s, last) == last;
  }

  /**
   * Nor does it pair the closing braces of a top-level parameter with its
   * opening: in `{{{text{{name}}}}}` the first three closing braces leave the
   * parameter while the template inside is still open, and the last two close
   * that template. What is returned is the template together with the
   * parameter's `}}}`: `{{{a{{Example}}}}}` returns `{{Example}}}}}`.
   */
  lemma TemplateInClosedParameter(text: string, name: string)
    requires BraceFree(text) && BraceFree(name)
    ensures FindTemplates("{{{" + text + ("{{" + name + "}}}}}")) == Accepted("{{" + name + "}}}}}")
  {
    var s := "{{{" + text + ("{{" + name + "}}}}}");
    var p := 3 + |text|;
    var e := p + 2 + |name|;
    ClosedParameterPieces(text, name);
    IntoParameter(s, p);
    TemplateClosingParameter(s, p, e, name);
    var last := State(e + 5, false, 0, "", [] + Accepted("{{" + name + "}}}}}"));
    assert Run(s, last) == last;
  }

  /** `{{{a{{Example}}}}}` returns the single candidate `{{Example}}}}}`. */
  lemma ClosedParameterExample()
    ensures FindTemplates("{{{a{{Example}}}}}") == ["{{Example}}}}}"]
  {
    var name := "Example";
    assert BraceFree(name) && BraceFree("a");
    TemplateInClosedParameter("a", name);
    assert "{{" + name + "}}}}}" == "{{Example}}}}}";
    assert "{{{" + "a" + "{{Example}}}}}" == "{{{a{{Example}}}}}";
    assert IsValidTemplate("{{Example}}}}}");
  }

  /** The run over a text that opens with `{{{` and goes on brace-free up to `p`. */
  lemma IntoParameter(s: string, p: nat)
    requires Triple(s, 0, '{') && 3 <= p <= |s| && BraceFreeBetween(s, 3, p)
    ensures Run(s, Initial) == Run(s, State(p, true, 0, "", []))
  {
    var s1 := State(3, true, 0, "", []);
    var next := OpenParameter(s, Initial);
    assert next == s1;
    OutsideText(s, s1, p);
    assert s1.(idx := p) == State(p, true, 0, "", []);
  }

  /** The pieces of `{{{text{{name}}`. */
  lemma OpenParameterPieces(text: string, name: string)
    requires BraceFree(text) && BraceFree(name)
    ensures var s := "{{{" + text + ("{{" + name + "}}");
            var p := 3 + |text|;
            var e := p + 2 + |name|;
            e + 2 == |s| && Triple(s, 0, '{') && BraceFreeBetween(s, 3, p)
            && Pair(s, p, '{') && s[p + 2..e] == name && BraceFreeBetween(s, p + 2, e)
            && Pair(s, e, '}') && !Triple(s, e, '}')
  {
    var s := "{{{" + text + ("{{" + name + "}}");
    var p := 3 + |text|;
    var e := p + 2 + |name|;
    assert forall k :: 0 <= k < |text| ==> s[3 + k] == text[k];
    assert forall k :: 0 <= k < |name| ==> s[p + 2 + k] == name[k];
    assert s[0] == s[1] == s[2] == s[p] == s[p + 1] == '{' && s[e] == s[e + 1] == '}';
    forall k | 3 <= k < p
      ensures s[k] != '{' && s[k] != '}'
    {
      assert s[k] == text[k - 3];
    }
    forall k | p + 2 <= k < e
      ensures s[k] != '{' && s[k] != '}'
    {
      assert s[k] == name[k - p - 2];
    }
    assert s[p + 2..e] == name;
  }

  /** The pieces of `{{{text{{name}}}}}`. */
  lemma ClosedParameterPieces(text: string, name: string)
    requires BraceFree(text) && BraceFree(name)
    ensures var s := "{{{" + text + ("{{" + name + "}}}}}");
            var p := 3 + |text|;
            var e := p + 2 + |name|;
            e + 5 == |s| && Triple(s, 0, '{') && BraceFreeBetween(s, 3, p)
            && Pair(s, p, '{') && s[p + 2..e] == name && BraceFreeBetween(s, p + 2, e)
            && Triple(s, e, '}') && Pair(s, e + 3, '}')
  {
    var s := "{{{" + text + ("{{" + name + "}}}}}");
    var p := 3 + |text|;
    var e := p + 2 + |name|;
    assert forall k :: 0 <= k < |text| ==> s[3 + k] == text[k];
    assert forall k :: 0 <= k < |name| ==> s[p + 2 + k] == name[k];
    assert s[0] == s[1] == s[2] == s[p] == s[p + 1] == '{';
    assert s[e] == s[e + 1] == s[e + 2] == s[e + 3] == s[e + 4] == '}';
    forall k | 3 <= k < p
      ensures s[k] != '{' && s[k] != '}'
    {
      assert s[k] == text[k - 3];
    }
    forall k | p + 2 <= k < e
      ensures s[k] != '{' && s[k] != '}'
    {
      assert s[k] == name[k - p - 2];
    }
    assert s[p + 2..e] == name;
  }

  /**
   * A template `{{name}}` met inside a parameter at counter zero is read as
   * one unit when its `}}` is not a `}}}`: it is emitted when valid.
   */
  lemma TemplateInParameter(s: string, p: nat, e: nat, name: string)
    requires Pair(s, p, '{') && p + 2 <= e && Pair(s, e, '}') && !Triple(s, e, '}')
    requires s[p + 2..e] == name && BraceFreeBetween(s, p + 2, e)
    ensures Run(s, State(p, true, 0, "", []))
            == Run(s, State(e + 2, true, 0, "", [] + Accepted("{{" + name + "}}")))
  {
    NameInParameter(s, p, e, name);
    CloseInParameter(s, e, "{{" + name, []);
  }

  /** Inside a parameter at counter zero, `{{name` with a brace-free name becomes the buffer. */
  lemma NameInParameter(s: string, p: nat, e: nat, name: string)
    requires Pair(s, p, '{') && p + 2 <= e <= |s|
    requires s[p + 2..e] == name && BraceFreeBetween(s, p + 2, e)
    ensures Run(s, State(p, true, 0, "", [])) == Run(s, State(e, true, 1, "{{" + name, []))
  {
    OpenInParameter(s, p, "", []);
    assert "" + "{{" == "{{";
    TemplateText(s, p + 2, e, true, "{{", []);
    assert State(e, true, 1, "{{" + s[p + 2..e], []) == State(e, true, 1, "{{" + name, []);
  }

  /**
   * A template `{{name` opened inside a parameter at counter zero and followed
   * by `}}}}}`: the `}}}` leaves the parameter and joins the buffer, and the
   * final `}}` completes the buffer, which is emitted when valid.
   */
  lemma TemplateClosingParameter(s: string, p: nat, e: nat, name: string)
    requires Pair(s, p, '{') && p + 2 <= e && Triple(s, e, '}') && Pair(s, e + 3, '}')
    requires s[p + 2..e] == name && BraceFreeBetween(s, p + 2, e)
    ensures Run(s, State(p, true, 0, "", []))
            == Run(s, State(e + 5, false, 0, "", [] + Accepted("{{" + name + "}}}}}")))
  {
    var buf := "{{" + name + "}}}";
    var s0 := State(p, true, 0, "", []);
    var s1 := State(e, true, 1, "{{" + name, []);
    var s2 := State(e + 3, false, 1, buf, []);
    var s3 := State(e + 5, false, 0, "", [] + Accepted(buf + "}}"));
    assert buf + "}}" == "{{" + name + "}}}}}";
    assert s3 == State(e + 5, false, 0, "", [] + Accepted("{{" + name + "}}}}}"));
    NameInParameter(s, p, e, name);
    CloseNestedParameter(s, e, "{{" + name, []);
    CloseTemplate(s, e + 3, buf, []);
    assert Run(s, s0) == Run(s, s1) == Run(s, s2) == Run(s, s3);
  }
}

=== FILE: template_finder.dfy ===
/**
 * The cursor of `TemplateFinder`: the codepoints of the source, their count,
 * a read position, and the (still empty) template list and buffer. The cursor
 * is a value here; each operation returns the cursor it leaves behind.
 */
module TemplateFinder {
  import opened Text
  import RecursiveParser

  /** The fields of a `TemplateFinder` object. */
  datatype Finder = Finder(
    tokens: seq<char>,
    numTokens: nat,
    templates: seq<string>,
    current: nat,
    templateBuffer: string)

  /** The count agrees with the tokens and the position has not run past the end. */
  predicate Valid(f: Finder) {
    f.numTokens == |f.tokens| && f.current <= f.numTokens
  }

  /** `atEnd()`: the position has reached the number of tokens. */
  predicate AtEnd(f: Finder) {
    f.current >= f.numTokens
  }

  /** How many tokens are left to read. */
  function Remaining(f: Finder): nat
    requires Valid(f)
  {
    f.numTokens - f.current
  }

  /**
   * `peek($amount = 1)`: the token `amount` places after the position, or the
   * sentinel when that place holds no token.
   */
  function Peek(f: Finder, amount: int := 1): (c: char)
    ensures 0 <= f.current + amount < |f.tokens| ==> c == f.tokens[f.current + amount]
    ensures !(0 <= f.current + amount < |f.tokens|) ==> c == Sentinel
  {
    Lookahead(f.tokens, f.current + amount)
  }

  /**
   * The object right after its fields are initialised: the codepoints of the
   * source and their count, position 0, no templates, an empty buffer. Every
   * lookahead reads the source itself, and the cursor is at its end exactly
   * when the source is empty.
   */
  function New(source: string): (f: Finder)
    ensures Valid(f) && f.tokens == source && f.current == 0
    ensures f.templates == [] && f.templateBuffer == []
    ensures AtEnd(f) <==> source == []
    ensures forall k :: Peek(f, k) == Lookahead(source, k)
  {
    Finder(source, |source|, [], 0, "")
  }

  /** `getTemplates()`. */
  function GetTemplates(f: Finder): seq<string> {
    f.templates
  }

  /**
   * `current()`: the token at the position, which is what a lookahead of zero
   * sees. Defined only before the end; PHP raises an error past it.
   */
  function Current(f: Finder): (c: char)
    requires Valid(f) && !AtEnd(f)
    ensures c == f.tokens[f.current] && c == Peek(f, 0)
  {
    f.tokens[f.current]
  }

  /**
   * `consume()`: returns the token at the position and moves the position on by
   * one. One fewer token is left, every lookahead of the result sees what a
   * lookahead one further saw before, and nothing but the position changes.
   */
  function Consume(f: Finder): (res: (char, Finder))
    requires Valid(f) && !AtEnd(f)
    ensures res.0 == Current(f)
    ensures Valid(res.1) && Remaining(res.1) == Remaining(f) - 1
    ensures forall k :: Peek(res.1, k) == Peek(f, k + 1)
    ensures res.1.tokens == f.tokens && res.1.numTokens == f.numTokens
    ensures GetTemplates(res.1) == GetTemplates(f) && res.1.templateBuffer == f.templateBuffer
  {
    (f.tokens[f.current], f.(current := f.current + 1))
  }

  /** What the dispatch of `findTemplates` sees at the position. */
  datatype Construct = ParameterStart | TemplateStart | Neither

  /**
   * The dispatch test of `findTemplates`: `{{{` is checked before `{{`, so a
   * parameter opening is never taken for a template opening.
   */
  function NextConstruct(f: Finder): (d: Construct)
    requires Valid(f) && !AtEnd(f)
    ensures d == ParameterStart <==> Triple(f.tokens, f.current, '{')
    ensures d == TemplateStart <==> Pair(f.tokens, f.current, '{') && !Triple(f.tokens, f.current, '{')
  {
    if Current(f) == '{' && Peek(f) == '{' && Peek(f, 2) == '{' then ParameterStart
    else if Current(f) == '{' && Peek(f) == '{' then TemplateStart
    else Neither
  }

  /**
   * The cursor's dispatch and the flat scanner's branch test agree on openings
   * outside a parameter, whatever the counter.
   */
  lemma NextConstructAgreesWithScanner(f: Finder, openBrackets: int)
    requires Valid(f) && !AtEnd(f)
    ensures NextConstruct(f) == ParameterStart
            <==> RecursiveParser.Classify(f.tokens, f.current, false, openBrackets) == RecursiveParser.ParameterOpen
    ensures NextConstruct(f) == TemplateStart
            <==> RecursiveParser.Classify(f.tokens, f.current, false, openBrackets) == RecursiveParser.TemplateOpen
  {
  }

  /**
   * One pass of the `findTemplates` loop: it either goes round again with the
   * cursor it leaves, or hands over to `consumeParameter` or `consumeTemplate`
   * (whose bodies are not part of this model) with the cursor as it stands.
   */
  datatype Pass = Again(next: Finder) | ToParameter(at: Finder) | ToTemplate(at: Finder)

  /**
   * The loop body as written: the dispatch picks a hand-over on `{{{` or `{{`,
   * and on anything else the pass ends without moving the cursor.
   */
  function LoopPass(f: Finder): (p: Pass)
    requires Valid(f) && !AtEnd(f)
    ensures p.ToParameter? <==> Triple(f.tokens, f.current, '{')
    ensures p.ToTemplate? <==> Pair(f.tokens, f.current, '{') && !Triple(f.tokens, f.current, '{')
  {
    match NextConstruct(f)
    case ParameterStart => ToParameter(f)
    case TemplateStart => ToTemplate(f)
    case Neither => Again(f)
  }

  /**
   * On a token that does not open `{{`, the written loop comes back to the very
   * cursor it started from with the loop condition still true, so it never ends:
   * `new TemplateFinder("a")` does not return.
   */
  lemma StallsOnPlainText(f: Finder)
    requires Valid(f) && !AtEnd(f) && !Pair(f.tokens, f.current, '{')
    ensures LoopPass(f) == Again(f) && !AtEnd(LoopPass(f).next)
  {
  }

  /** The text `"a"` is one such case. */
  lemma StallsOnA()
    ensures var f := New("a"); !AtEnd(f) && LoopPass(f) == Again(f)
  {
    StallsOnPlainText(New("a"));
  }

  /**
   * The loop body as evidently intended: a token that opens nothing is
   * consumed, so every pass that goes round again leaves fewer tokens.
   */
  function SkippingPass(f: Finder): (p: Pass)
    requires Valid(f) && !AtEnd(f)
    ensures p.ToParameter? <==> Triple(f.tokens, f.current, '{')
    ensures p.ToTemplate? <==> Pair(f.tokens, f.current, '{') && !Triple(f.tokens, f.current, '{')
    ensures p.Again? ==> Valid(p.next) && p.next.tokens == f.tokens && Remaining(p.next) < Remaining(f)
  {
    match NextConstruct(f)
    case ParameterStart => ToParameter(f)
    case TemplateStart => ToTemplate(f)
    case Neither => Again(Consume(f).1)
  }

  /**
   * Repeating the intended pass: it stops at the end of the tokens or at the
   * first `{{` at or after the position, never skipping one.
   */
  function SkipToOpening(f: Finder): (r: Finder)
    requires Valid(f)
    ensures Valid(r) && r.tokens == f.tokens && f.current <= r.current
    ensures AtEnd(r) || Pair(r.tokens, r.current, '{')
    ensures forall k :: f.current <= k < r.current ==> !Pair(f.tokens, k, '{')
    decreases Remaining(f)
  {
    if AtEnd(f) then f
    else match SkippingPass(f)
      case Again(next) => SkipToOpening(next)
      case ToParameter(_) => f
      case ToTemplate(_) => f
  }
}

=== FILE: template_validity.dfy ===
/**
 * What `isValidTemplate` accepts, and why reading it over codepoints is
 * faithful to the byte checks the PHP code performs.
 */
module TemplateValidity {
  import opened RecursiveParser
  import Utf8

  // ---------------------------------------------------------------------------
  // isValidTemplate
  // ---------------------------------------------------------------------------

  /**
   * A name wrapped in template braces is accepted exactly when the name is
   * non-empty and does not start with `#`: `{{}}` and `{{#Example}}` are
   * rejected, `{{ }}` is accepted.
   */
  lemma WrappedNameIsValid(name: string)
    ensures IsValidTemplate("{{" + name + "}}") <==> |name| >= 1 && name[0] != '#'
  {
    var t := "{{" + name + "}}";
    assert |t| == |name| + 4;
    assert t[0] == '{' && t[1] == '{' && t[|t| - 1] == '}' && t[|t| - 2] == '}';
    if |name| >= 1 {
      assert t[2] == name[0];
    }
  }

  /** Every accepted string is some name wrapped in template braces. */
  lemma ValidTemplateIsWrapped(t: string)
    requires IsValidTemplate(t)
    ensures t == "{{" + t[2..|t| - 2] + "}}"
  {
    assert t == t[..2] + t[2..|t| - 2] + t[|t| - 2..];
    assert t[..2] == "{{";
    assert t[|t| - 2..] == "}}";
  }

  /** The examples the repository's tests rely on. */
  lemma ValidTemplateExamples()
    ensures !IsValidTemplate("{{}}")
    ensures !IsValidTemplate("{{#Example}}")
    ensures IsValidTemplate("{{ }}")
    ensures IsValidTemplate("{{Example}}")
    ensures IsValidTemplate("{{{Param1}}}")
  {
    WrappedNameIsValid("");
    WrappedNameIsValid("#Example");
    WrappedNameIsValid(" ");
    WrappedNameIsValid("Example");
    WrappedNameIsValid("{Param1}");
    assert "{{" + "" + "}}" == "{{}}";
    assert "{{" + "#Example" + "}}" == "{{#Example}}";
    assert "{{" + " " + "}}" == "{{ }}";
    assert "{{" + "Example" + "}}" == "{{Example}}";
    assert "{{" + "{Param1}" + "}}" == "{{{Param1}}}";
  }

  // ---------------------------------------------------------------------------
  // Byte reading versus codepoint reading of isValidTemplate
  // ---------------------------------------------------------------------------

  /** Encoding a single codepoint text gives that codepoint's bytes. */
  lemma EncodeSingle(c: char)
    ensures Utf8.Encode([c]) == Utf8.EncodeChar(c)
  {
    assert [c][1..] == [];
  }

  /**
   * The first byte of a codepoint is an ASCII byte `a` exactly when the
   * codepoint is `a`, and likewise for its last byte.
   */
  lemma AsciiByte(c: char, a: char)
    requires a as int < 0x80
    ensures Utf8.EncodeChar(c)[0] == a as int <==> c == a
    ensures var bs := Utf8.EncodeChar(c); bs[|bs| - 1] == a as int <==> c == a
  {
    var bs := Utf8.EncodeChar(c);
    if c as int >= 0x80 {
      assert 0x80 <= bs[|bs| - 1] < 0xC0;
    }
  }

  /** The bytes open with `{{` exactly when the codepoints do. */
  lemma OpeningAgrees(s: string)
    ensures var b := Utf8.Encode(s);
            (|b| >= 2 && b[0] == '{' as int && b[1] == '{' as int)
            <==> (|s| >= 2 && s[0] == '{' && s[1] == '{')
  {
    var b := Utf8.Encode(s);
    if |s| >= 1 {
      AsciiByte(s[0], '{');
      if s[0] == '{' {
        assert b == ['{' as int] + Utf8.Encode(s[1..]);
        if |s| >= 2 {
          AsciiByte(s[1], '{');
          assert b[1] == Utf8.EncodeChar(s[1])[0];
        } else {
          assert s[1..] == [];
        }
      }
    }
  }

  /** Appending a codepoint appends its bytes. */
  lemma EncodeSnoc(init: string, c: char)
    ensures Utf8.Encode(init + [c]) == Utf8.Encode(init) + Utf8.EncodeChar(c)
  {
    Utf8.EncodeAppend(init, [c]);
    EncodeSingle(c);
  }

  /** The bytes of a non-empty text end with the bytes of its last codepoint. */
  lemma EncodeLast(s: string)
    requires |s| >= 1
    ensures Utf8.Encode(s) == Utf8.Encode(s[..|s| - 1]) + Utf8.EncodeChar(s[|s| - 1])
  {
    var init, c := s[..|s| - 1], s[|s| - 1];
    assert s == init + [c];
    EncodeSnoc(init, c);
  }

  /** The last byte of a non-empty text is the last byte of its last codepoint. */
  lemma LastByte(s: string)
    requires |s| >= 1
    ensures var b := Utf8.Encode(s); var l := Utf8.EncodeChar(s[|s| - 1]);
            b[|b| - 1] == l[|l| - 1]
  {
    EncodeLast(s);
  }

  /** The bytes close with `}}` exactly when the codepoints do. */
  lemma ClosingAgrees(s: string)
    ensures var b := Utf8.Encode(s);
            (|b| >= 2 && b[|b| - 1] == '}' as int && b[|b| - 2] == '}' as int)
            <==> (|s| >= 2 && s[|s| - 1] == '}' && s[|s| - 2] == '}')
  {
    if |s| >= 1 {
      LastByte(s);
      AsciiByte(s[|s| - 1], '}');
      if s[|s| - 1] == '}' {
        ClosedByBrace(s);
      }
    }
  }

  /**
   * When the last codepoint is `}`, the last byte is `}` and the byte before
   * it is `}` exactly when the codepoint before it is.
   */
  lemma ClosedByBrace(s: string)
    requires |s| >= 1 && s[|s| - 1] == '}'
    ensures var b := Utf8.Encode(s);
            (|b| >= 2 && b[|b| - 2] == '}' as int) <==> (|s| >= 2 && s[|s| - 2] == '}')
  {
    var init := s[..|s| - 1];
    var e := Utf8.Encode(init);
    EncodeLast(s);
    assert Utf8.Encode(s) == e + ['}' as int];
    if |s| >= 2 {
      LastByte(init);
      AsciiByte(init[|init| - 1], '}');
      assert init[|init| - 1] == s[|s| - 2];
    } else {
      assert init == [];
    }
  }

  /** The bytes of a name wrapped in template braces. */
  lemma EncodeWrapped(name: string)
    ensures Utf8.Encode("{{" + name + "}}")
            == ['{' as int, '{' as int] + Utf8.Encode(name) + ['}' as int, '}' as int]
  {
    Utf8.EncodeAppend("{{" + name, "}}");
    Utf8.EncodeAppend("{{", name);
    assert Utf8.Encode("{{") == ['{' as int, '{' as int];
    assert Utf8.Encode("}}") == ['}' as int, '}' as int];
  }

  /**
   * `isValidTemplate` as written (on the UTF-8 bytes of the buffer) and its
   * codepoint reading accept exactly the same strings.
   */
  lemma ByteCheckAgrees(s: string)
    ensures IsValidTemplateBytes(Utf8.Encode(s)) <==> IsValidTemplate(s)
  {
    OpeningAgrees(s);
    ClosingAgrees(s);
    if |s| >= 2 && s[0] == '{' && s[1] == '{' && s[|s| - 1] == '}' && s[|s| - 2] == '}' {
      assert |s| >= 4;
      var name := s[2..|s| - 2];
      assert s == "{{" + name + "}}";
      EncodeWrapped(name);
      var b := Utf8.Encode(s);
      var m := Utf8.Encode(name);
      assert b == ['{' as int, '{' as int] + m + ['}' as int, '}' as int];
      if |name| >= 1 {
        assert m[0] == Utf8.EncodeChar(s[2])[0];
        assert b[2] == m[0];
        AsciiByte(s[2], '#');
      }
    }
  }
}

=== FILE: text.dfy ===
/**
 * Wikitext as both scanners see it: a sequence of already-decoded codepoints,
 * read with a bounds-checked lookahead that yields a NUL sentinel past the end.
 */
module Text {

  /** What a lookahead outside the text yields (PHP's `"\0"` fallback of `??`). */
  const Sentinel: char := '\0'

  /** The codepoint at position `i`, or `Sentinel` when `i` is not a position of `s`. */
  function Lookahead(s: string, i: int): (c: char)
    ensures 0 <= i < |s| ==> c == s[i]
    ensures !(0 <= i < |s|) ==> c == Sentinel
  {
    if 0 <= i < |s| then s[i] else Sentinel
  }

  /** The word `w` occurs in `s` starting at position `i`. */
  predicate StartsAt(s: string, i: nat, w: string) {
    i + |w| <= |s| && s[i..i + |w|] == w
  }

  /** Two copies of `c` start at position `i` of `s`. */
  predicate Pair(s: string, i: nat, c: char) {
    i + 1 < |s| && s[i] == c && s[i + 1] == c
  }

  /** Three copies of `c` start at position `i` of `s`. */
  predicate Triple(s: string, i: nat, c: char) {
    i + 2 < |s| && s[i] == c && s[i + 1] == c && s[i + 2] == c
  }

  /** `Pair` is an occurrence of the two-character word `cc`. */
  lemma PairIsWord(s: string, i: nat, c: char)
    ensures Pair(s, i, c) <==> StartsAt(s, i, [c, c])
  {
    if StartsAt(s, i, [c, c]) {
      assert s[i..i + 2][0] == s[i] && s[i..i + 2][1] == s[i + 1];
    }
    if Pair(s, i, c) {
      assert s[i..i + 2] == [c, c];
    }
  }

  /** `Triple` is an occurrence of the three-character word `ccc`. */
  lemma TripleIsWord(s: string, i: nat, c: char)
    ensures Triple(s, i, c) <==> StartsAt(s, i, [c, c, c])
  {
    if StartsAt(s, i, [c, c, c]) {
      assert s[i..i + 3][0] == s[i] && s[i..i + 3][1] == s[i + 1] && s[i..i + 3][2] == s[i + 2];
    }
    if Triple(s, i, c) {
      assert s[i..i + 3] == [c, c, c];
    }
  }

  /** `StartsAt`, position by position. */
  lemma StartsAtIndex(s: string, i: nat, w: string)
    ensures StartsAt(s, i, w) <==> i + |w| <= |s| && forall k :: 0 <= k < |w| ==> s[i + k] == w[k]
  {
    if i + |w| <= |s| && forall k :: 0 <= k < |w| ==> s[i + k] == w[k] {
      assert forall k :: 0 <= k < |w| ==> s[i..i + |w|][k] == w[k];
    }
    if StartsAt(s, i, w) {
      forall k | 0 <= k < |w|
        ensures s[i + k] == w[k]
      {
        assert s[i..i + |w|][k] == s[i + k];
      }
    }
  }
}

=== FILE: utf8.dfy ===
/**
 * The UTF-8 encoding of codepoint text, as far as needed to relate PHP's byte
 * indexing (`strlen`, `$source[i]`) to indexing by codepoint.
 */
module Utf8 {

  /** One byte of a PHP string. */
  type Byte = b: int | 0 <= b < 256

  /**
   * The UTF-8 bytes of one codepoint: a single byte below 0x80 that equals the
   * codepoint, otherwise a lead byte of at least 0xC0 followed by
   * continuation bytes in 0x80..0xBF.
   */
  function EncodeChar(c: char): (bs: seq<Byte>)
    ensures 1 <= |bs| <= 4
    ensures c as int < 0x80 <==> |bs| == 1
    ensures c as int < 0x80 ==> bs == [c as int]
    ensures c as int >= 0x80 ==> bs[0] >= 0xC0
    ensures forall k :: 1 <= k < |bs| ==> 0x80 <= bs[k] < 0xC0
  {
    var n := c as int;
    if n < 0x80 then [n]
    else if n < 0x800 then [0xC0 + n / 0x40, 0x80 + n % 0x40]
    else if n < 0x1_0000 then [0xE0 + n / 0x1000, 0x80 + (n / 0x40) % 0x40, 0x80 + n % 0x40]
    else [0xF0 + n / 0x4_0000, 0x80 + (n / 0x1000) % 0x40, 0x80 + (n / 0x40) % 0x40, 0x80 + n % 0x40]
  }

  /** The UTF-8 bytes of a codepoint sequence, codepoint after codepoint. */
  function Encode(s: string): (bs: seq<Byte>)
    ensures |bs| >= |s|
    ensures |s| > 0 ==> |bs| > 0 && bs[0] == EncodeChar(s[0])[0]
  {
    if s == [] then [] else EncodeChar(s[0]) + Encode(s[1..])
  }

  /** Encoding distributes over concatenation. */
  lemma {:induction false} EncodeAppend(s: string, t: string)
    ensures Encode(s + t) == Encode(s) + Encode(t)
  {
    if s == [] {
      assert s + t == t;
    } else {
      calc {
        Encode(s + t);
        EncodeChar((s + t)[0]) + Encode((s + t)[1..]);
        { assert (s + t)[0] == s[0]; assert (s + t)[1..] == s[1..] + t; }
        EncodeChar(s[0]) + Encode(s[1..] + t);
        { EncodeAppend(s[1..], t); }
        EncodeChar(s[0]) + (Encode(s[1..]) + Encode(t));
        (EncodeChar(s[0]) + Encode(s[1..])) + Encode(t);
        Encode(s) + Encode(t);
      }
    }
  }
}
